=== FILE: README.md ===
# Urban Price Radar price updater, in Dafny

This project models the data side of Urban Price Radar: the weekly job that
asks a language model for the price bands of each Mumbai and Pune area, and
the schema the resulting `prices.json` is meant to satisfy.

- `Schema` (`schema.dfy`) is the Pydantic schema of `automation/schema.py`:
  price bands with non-negative integer bounds, `max >= min` and a
  confidence word; four property-type cells reachable by alias (`1rk`) or
  field name (`one_rk`); areas with non-empty strings, bounded coordinates,
  a zoom level and both price tables; the root document with its version
  pattern, disclaimer length, non-empty area list and unique area ids.
  `ValidatePriceData` turns an accepted document into typed records.
- `Extraction` (`extraction.dfy`) is `extract_json_from_response`:
  Python's `str.strip`, the two fence-removing substitutions (including the
  way `$` also matches before a final newline), and the fallback search for
  the text from the first `{` to the last `}`.
- `Merge` (`merge.dfy`) is `merge_price_data`: a Python dict keyed by area
  id, filled from the stored areas and then from the fresh ones, listed in
  insertion order.
- `Fetcher` (`fetcher.dfy`) is the rest of `fetch_prices.py`: region and city
  selection, the acceptance test and `{**area, **prices}` overlay of
  `fetch_prices_for_area`, the collection loop of `fetch_all_prices`, and the
  whole run.
- `Dicts` (`dicts.dfy`) models Python dicts as insertion-ordered association
  lists (`Get` reads the last entry for a key, as `json.loads` keeps the last
  of repeated members; `Put` assigns in place or appends). `JsonData`,
  `Sequences` and `Wrappers` hold the decoded-JSON value type, the exceptions
  the code can raise, sequence helpers, and `Option`/`Result`.

The language model is the parameter `ask`: `ask(i)(name, city)` is the text
of the reply to the i-th request, whose prompt names the area and city, or
`None` when the client raised. Decoding (`json.loads`) is the parameter
`parse`; the stored file is `stored` (`None` when there is none); the clock
is `now`; the date-time parser of the schema is `isDateTime`; the two area
tables are an `AreaTables` value.

The run saves what it merged without validating it:
`validate_price_data` is imported at `automation/fetch_prices.py:32` but not
called before `save_prices` at lines 343-344. The model keeps that apart:
`Merge.MergeSatisfiesUniqueIdRule` shows that the merge can never produce
repeated ids, while `Fetcher.FirstRunWithNoRepliesFailsSchema` exhibits a
successful run whose document the schema rejects (no stored file, every
request failing, so the area list is empty).

## Model

| member | source | states |
|---|---|---|
| Dicts.GetIsLast | automation/fetch_prices.py:259 | a lookup returns the value of the last entry carrying the key, so a later assignment to an id hides an earlier one |
| Dicts.Put | automation/fetch_prices.py:263 | assigning a key keeps the dict's key order when the key is present and appends it otherwise; afterwards that key reads the new value and every other key reads as before |
| Dicts.PutAllGet | automation/fetch_prices.py:262-263 | after a series of assignments a key reads its last assigned value when it was assigned, and its earlier value otherwise |
| Dicts.PutAllKeys | automation/fetch_prices.py:259 | a dict built from a list of pairs holds each key once, in order of first assignment |
| Dicts.Spread | automation/fetch_prices.py:217 | `{**a, **b}` holds each key once, `a`'s keys first then the keys only `b` has, and `b`'s value wins for keys both have |
| Schema.ConfidenceName | automation/schema.py:15 | each of the three confidence levels is named by a word the band's literal accepts |
| Schema.ZoomName | automation/schema.py:45 | each of the three zoom levels is named by a word the area's literal accepts |
| Schema.ValidBand | automation/schema.py:11-24 | the band rule: `min` and `max` are integers of at least 0 (booleans excluded), `max` is at least `min`, and `confidence` is one of "low", "medium", "high" |
| Schema.ToBand | automation/schema.py:11-24 | an accepted band yields a typed band with 0 <= min <= max holding exactly the object's numbers and confidence |
| Schema.BandAcceptance | automation/schema.py:13-24 | a band object is accepted exactly when both bounds are non-negative, max >= min and the confidence is "low", "medium" or "high"; zero bounds pass and "Low" fails |
| Schema.ValidPropertyPrices | automation/schema.py:27-35 | the table rule: each of the four cells, read by its alias or else by its field name, is present and a valid band |
| Schema.ToPropertyPrices | automation/schema.py:27-35 | an accepted table yields four typed bands, each holding the numbers of the cell found by alias or else by field name, each with min <= max |
| Schema.MissingCellRejected | automation/schema.py:29-32 | a table with any one of the four cells absent under both its alias and its field name is rejected |
| Schema.ValidArea | automation/schema.py:38-49 | the area rule: non-empty string id, name and region, numeric latitude in [-90, 90] and longitude in [-180, 180], a zoom word among "region", "area", "micro", and valid buy and rent tables |
| Schema.ToArea | automation/schema.py:38-49 | an accepted area yields the typed area holding exactly its id, name, region, latitude, longitude and zoom word, its buy table as buy and its rent table as rent, with non-empty strings and bounded coordinates |
| Schema.VersionScanMatchesPattern | automation/schema.py:54 | the version scanner accepts a string exactly when it is three non-empty runs of ASCII digits separated by two dots |
| Schema.ToAreas | automation/schema.py:38-49 | accepted areas convert one for one, in order, each typed area holding exactly the members of the object at its position |
| Schema.ToPriceData | automation/schema.py:52-65 | a document passing the field rules converts to a well-formed one holding exactly its version, `generated_at` value and disclaimer, and one typed area per member of its area list, in order |
| Schema.ValidDataset | automation/schema.py:52-65 | the document rule: a version matching the pattern, a date-time, a disclaimer of at least 10 characters, and a non-empty list of valid areas with no repeated id |
| Schema.ValidatePriceData | automation/schema.py:52-70 | validation returns a document exactly when every field rule holds; the document then holds exactly the input's version, timestamp, disclaimer and areas, and has a valid version, a disclaimer of at least 10 characters, at least one area, bounded coordinates and distinct ids |
| Schema.AreaReadingUnique | automation/schema.py:38-49 | an area object reads as one typed area at most, so the conversion keeps the input's values and nothing else |
| Schema.DocumentReadingUnique | automation/schema.py:52-70 | a document reads as one typed document at most, so the validated result is fixed by the input |
| Schema.DuplicateIdsRejected | automation/schema.py:59-65 | when every other rule holds, a document is rejected exactly when two areas share an id |
| Extraction.Strip | automation/fetch_prices.py:188 | stripping returns a contiguous piece of the text that neither starts nor ends with a Python whitespace character, with only whitespace cut away |
| Extraction.StripUnchanged | automation/fetch_prices.py:188 | a text starting and ending with non-whitespace is left as it is |
| Extraction.OpeningFenceIsLongestMatch | automation/fetch_prices.py:191-192 | the opening substitution is applied only to a text starting with three backticks, and removes the longest of "```json\n", "```json", "```\n", "```" that starts the text; any other text is left as it is |
| Extraction.ClosingFenceIsLeftmostMatch | automation/fetch_prices.py:193 | the closing substitution removes the leftmost piece "\n```" or "```" that ends the text or sits just before its final newline, every other such piece overlapping it; with no such piece the text is left as it is |
| Extraction.CleanResponse | automation/fetch_prices.py:188-193 | a stripped text that does not start with three backticks is handed to the decoder unchanged; a fenced one goes through both substitutions, whose effect `OpeningFenceIsLongestMatch` and `ClosingFenceIsLeftmostMatch` state |
| Extraction.BraceSpan | automation/fetch_prices.py:199-200 | a span is found exactly when some `{` precedes some `}`; it runs from the first `{` to the last `}` |
| Extraction.ExtractJson | automation/fetch_prices.py:185-205 | when the cleaned text decodes that value is returned; otherwise, when a span from the first `{` to the last `}` exists, the result is the decoding of exactly that span; nothing is returned exactly when neither decodes |
| Extraction.FencedRoundTrip | automation/fetch_prices.py:191-193 | a body wrapped in a `json`-tagged or untagged code fence is unwrapped to exactly the body |
| Extraction.FencedReplyDecodes | automation/fetch_prices.py:185-196 | a fenced reply whose body decodes yields the decoded body |
| Merge.KeyOf | automation/fetch_prices.py:259 | hashing an id raises `TypeError` exactly for a list or a dict |
| Merge.SameKeyIffEqual | automation/fetch_prices.py:259-263 | two hashable ids are the same dict key exactly when Python finds them equal: numbers by value with booleans as 0 and 1, strings by content, `None` only with itself |
| Merge.AreaId | automation/fetch_prices.py:259 | `area["id"]` raises `TypeError` for a non-dict, `KeyError` for a dict without "id", and otherwise succeeds exactly when the id is hashable |
| Merge.ExistingAreas | automation/fetch_prices.py:259 | `existing.get("areas", [])` raises `AttributeError` for a non-dict, gives no areas when the key is absent, the list itself when it is a list, and raises `TypeError` exactly when the value is not iterable |
| Merge.KeyAll | automation/fetch_prices.py:259 | keying the areas succeeds exactly when every area is a dict with a hashable id, and pairs each area with its id in order; a failure is the exception of the first area that cannot be keyed |
| Merge.FirstUnkeyedAreaRaises | automation/fetch_prices.py:259 | for the areas `{}` then `[]` the `KeyError` of the first is raised, not the `TypeError` of the second |
| Merge.DocumentFields | automation/fetch_prices.py:265-270 | the returned document reads back its version, timestamp, disclaimer and area list |
| Merge.MergePriceData | automation/fetch_prices.py:256-270 | the merge raises exactly when the stored document is not a dict, its areas cannot be iterated, or an area has no hashable id, and the exception is that of the first failing step: reading the stored areas, then keying them, then keying the new ones; otherwise it returns the stored version (default "1.0.0"), the given time, the fixed disclaimer and the merged areas |
| Merge.MergeAsOneDict | automation/fetch_prices.py:259-263 | the two loops build the same dict as one loop over the stored areas followed by the fresh ones |
| Merge.MergeIds | automation/fetch_prices.py:259-269 | the merged ids are every stored or fresh id once, in first-occurrence order: stored ids in their places, then ids new to the document in the order the fresh areas bring them |
| Merge.MergeIdsUnique | automation/fetch_prices.py:259-269 | no id occurs twice among the merged areas, whose number is the number of distinct ids |
| Merge.MergeLastWriteWins | automation/fetch_prices.py:262-263 | the area kept for an id is the last fresh area with that id when one exists, and otherwise the last stored area with it |
| Merge.MergeKeepsUntouched | automation/fetch_prices.py:259-263 | a stored id that no fresh area carries stays in the document with its last stored record |
| Merge.MergeSatisfiesUniqueIdRule | automation/fetch_prices.py:256-270 | when all merged areas have string ids, their ids counted as a set are as many as the areas; so the merged list passes the schema's area-list rule exactly when it is non-empty and each area passes |
| Merge.MergeHeader | automation/fetch_prices.py:265-268 | the merged document's disclaimer passes the schema, its timestamp is the given time, and its version passes whenever the stored version did or was absent |
| Merge.DefaultVersionValid | automation/fetch_prices.py:266 | the fallback version "1.0.0" matches the schema's version pattern |
| Fetcher.AreasForRegion | automation/fetch_prices.py:227-236 | "mumbai" gives the Mumbai table, "pune" the Pune table, and a region other than "mumbai", "pune" and "all" raises `ValueError`, and only those |
| Fetcher.CityForRegion | automation/fetch_prices.py:239-245 | the city is "Mumbai" exactly for "mumbai", "Pune" exactly for "pune", and "India" for every other region |
| Fetcher.AllCoversBothCities | automation/fetch_prices.py:229-245 | "all" covers the Mumbai areas followed by the Pune areas and is prompted as "India" |
| Fetcher.Contains | automation/fetch_prices.py:216 | `in` raises `TypeError` exactly for a decoded value that is not a dict, list or string, and on a dict tests the keys |
| Fetcher.Accepts | automation/fetch_prices.py:216 | the acceptance test raises `TypeError` exactly for a truthy value that is not a dict, list or string, and on a dict holds exactly when both "buy" and "rent" are keys |
| Fetcher.Overlay | automation/fetch_prices.py:217 | spreading succeeds exactly when both values are dicts, and gives a dict |
| Fetcher.NameOf | automation/fetch_prices.py:210 | reading the name succeeds exactly when the area is a dict with a "name" key |
| Fetcher.AcceptAndOverlay | automation/fetch_prices.py:216-220 | a reply is accepted exactly when the area and the decoded reply are dicts and the reply has "buy" and "rent"; a list or string containing those words is refused |
| Fetcher.FetchPricesForArea | automation/fetch_prices.py:208-224 | fetching raises exactly when the area's name cannot be read, with `KeyError` for a dict and `TypeError` otherwise; every later failure yields nothing |
| Fetcher.OverlayFields | automation/fetch_prices.py:217 | the new record holds the table's keys then the reply's new ones, the reply's values win, and both price tables are present |
| Fetcher.FetchAccepts | automation/fetch_prices.py:208-224 | an area gets prices exactly when the reply decodes to a dict with "buy" and "rent", and the record then carries the reply's fields over the table's |
| Fetcher.NewAreas | automation/fetch_prices.py:289-299 | collecting succeeds exactly when every area has a readable name, keeps no more records than there are areas, and every record kept has both price tables |
| Fetcher.Collect | automation/fetch_prices.py:289-299 | the loop over the request outcomes succeeds exactly when no request raised, otherwise fails with the first raised exception, and keeps at most one record per request |
| Fetcher.CollectFailureSticks | automation/fetch_prices.py:291-294 | once a request has raised, later requests do not change the result of the loop |
| Fetcher.CollectIsTheSuccesses | automation/fetch_prices.py:289-299 | the collected list is exactly the requests' non-empty results, in request order |
| Fetcher.RegionMatchesCity | automation/fetch_prices.py:227-245 | for every accepted region the areas agree with the prompted city: one city's table for that city, both tables, Mumbai first, for "India", which only "all" is prompted with |
| Fetcher.FetchedAreAccepted | automation/fetch_prices.py:289-299 | every record the loop keeps holds both price tables and is the record built for one of the areas from a reply that decoded to a dict with "buy" and "rent" |
| Fetcher.CollectNewAreas | automation/fetch_prices.py:289-299 | the imperative loop, which stops at the first area whose name lookup raises, returns exactly `NewAreas` |
| Fetcher.LoadExisting | automation/fetch_prices.py:248-253 | with a stored file its content is used; without one the document has version "1.0.0" and no areas |
| Fetcher.FetchAllPrices | automation/fetch_prices.py:273-311 | an unknown region raises `ValueError`; otherwise a name lookup that raises during collection ends the run with that exception, and a completed collection gives exactly the merge of the stored document with the collected areas |
| Fetcher.FetchAllKeepsIdsUnique | automation/fetch_prices.py:282-311 | a successful run writes areas with distinct ids: the stored ids in their places, then the newly fetched ones |
| Fetcher.FirstRunWithNoRepliesFailsSchema | automation/fetch_prices.py:282-311 | for every known region (mumbai, pune, all), area tables, decoder and time: with no stored file, readable area names and a client that raises on every request, the run succeeds with a document that has no areas, which the schema rejects |

## Left out

- The Gemini client (`genai.configure`, `GenerativeModel`, `generate_content`, `response.text`) and `create_prompt`: replaced by the `ask` parameter, because the network service and the prompt text have no logic to verify.
- The `GEMINI_API_KEY` check at the start of `fetch_all_prices`: it depends only on the environment.
- `json.loads`, `json.load`, `save_prices` and the file at `OUTPUT_PATH`: decoding is the `parse` parameter and the stored file is the `stored` parameter; encoding and writing are I/O.
- `main`, argument parsing, every `print` and the `time.sleep` rate limit: console and timing only.
- `datetime.now(timezone.utc).isoformat()`: the timestamp is the `now` parameter.
- The contents of `MUMBAI_AREAS` and `PUNE_AREAS`: the tables are the `AreaTables` parameter.
- Schema.ValidBand, Schema.ValidArea: types are checked strictly; Pydantic's lax coercions (numeric strings, whole floats or booleans for integers) are not modelled, and its error messages are not modelled.
- Schema.ValidDataset: `generated_at` is checked by the abstract `isDateTime`, because Pydantic's date-time grammar is not part of this model.
- Merge.KeyOf: Python compares numeric keys by value, modelled with real numbers; NaN keys, which compare by identity, are not modelled.
- JsonData.JReal: `json.loads` also accepts `NaN`, `Infinity` and `-Infinity`, which a real number cannot hold; such replies are not modelled (as coordinates the schema would reject them anyway).
- Fetcher.FetchPricesForArea: an exception raised inside `extract_json_from_response` other than a decoding error (such as a recursion error) is not modelled; `parse` returning nothing stands for every decoding failure.
- `backend/app.py` and the map viewer are not part of this model.
- The zoom levels follow `automation/schema.py:45` (`region`, `area`, `micro`), not the six tiers the viewer recognises.
- A missing price cell is an error here, as in `automation/schema.py:29-32`; the viewer treats it as a gap, which is not part of this model.
- Schema.IsVersion: `\d` in the version pattern is read as the ASCII digits; the pattern engine used for validation also accepts other Unicode decimal digits, which this model rejects.
- Fetcher.LoadExisting: a stored file that exists but does not decode (`json.load` raising, after every request has been made) cannot be expressed, because the stored file is an optional decoded value.

=== FILE: dicts.dfy ===
/**
 * Python's insertion-ordered `dict`, as a sequence of entries.
 * Assigning an existing key keeps its position; assigning a new key appends it.
 */
module Dicts {
  import opened Wrappers
  import opened Sequences

  type Dict<K, V> = seq<(K, V)>

  /** `list(d.keys())` */
  function Keys<K, V>(d: Dict<K, V>): (ks: seq<K>)
    ensures |ks| == |d|
    ensures forall i :: 0 <= i < |d| ==> ks[i] == d[i].0
  {
    if d == [] then [] else Keys(d[..|d| - 1]) + [d[|d| - 1].0]
  }

  /** `list(d.values())` */
  function Values<K, V>(d: Dict<K, V>): (vs: seq<V>)
    ensures |vs| == |d|
    ensures forall i :: 0 <= i < |d| ==> vs[i] == d[i].1
  {
    if d == [] then [] else Values(d[..|d| - 1]) + [d[|d| - 1].1]
  }

  /**
   * `d.get(k)`. When a key is repeated the last entry wins, which is how
   * loading a JSON object with a repeated member behaves.
   */
  function Get<K(==, !new), V>(d: Dict<K, V>, k: K): Option<V>
  {
    if d == [] then None
    else if d[|d| - 1].0 == k then Some(d[|d| - 1].1)
    else Get(d[..|d| - 1], k)
  }

  /** A lookup finds a key exactly when the key is present, and returns a value stored under it. */
  lemma {:induction false} GetFound<K(!new), V>(d: Dict<K, V>, k: K)
    ensures Get(d, k).Some? <==> k in Keys(d)
    ensures Get(d, k).Some? ==> (k, Get(d, k).value) in d
  {
    if d != [] {
      GetFound(d[..|d| - 1], k);
    }
  }

  /** A lookup returns the value of the last entry with that key. */
  lemma {:induction false} GetIsLast<K(!new), V>(d: Dict<K, V>, k: K)
    requires Get(d, k).Some?
    ensures exists p :: 0 <= p < |d| && d[p] == (k, Get(d, k).value)
                        && forall q :: p < q < |d| ==> d[q].0 != k
  {
    if d[|d| - 1].0 != k {
      var init := d[..|d| - 1];
      GetIsLast(init, k);
      var p :| 0 <= p < |init| && init[p] == (k, Get(init, k).value)
               && forall q :: p < q < |init| ==> init[q].0 != k;
      assert d[p] == init[p];
      forall q | p < q < |d| ensures d[q].0 != k {
        if q < |d| - 1 {
          assert d[q] == init[q];
        }
      }
    } else {
      assert d[|d| - 1] == (k, Get(d, k).value);
    }
  }

  /** Overwrites the value of every entry with key `k`, leaving keys and order alone. */
  function ReplaceAll<K(==, !new), V>(d: Dict<K, V>, k: K, v: V): (r: Dict<K, V>)
    ensures Keys(r) == Keys(d)
    ensures forall k' :: Get(r, k') == if k' == k && k in Keys(d) then Some(v) else Get(d, k')
    ensures forall e :: e in r ==> e in d || e == (k, v)
  {
    if d == [] then []
    else
      var init := ReplaceAll(d[..|d| - 1], k, v);
      var last := d[|d| - 1];
      assert (init + [last])[..|d| - 1] == init;
      assert (init + [(k, v)])[..|d| - 1] == init;
      if last.0 == k then init + [(k, v)] else init + [last]
  }

  /** `d[k] = v`: an existing key keeps its position, a new key goes last. */
  function Put<K(==, !new), V>(d: Dict<K, V>, k: K, v: V): (r: Dict<K, V>)
    ensures Keys(r) == if k in Keys(d) then Keys(d) else Keys(d) + [k]
    ensures forall k' :: Get(r, k') == if k' == k then Some(v) else Get(d, k')
    ensures forall e :: e in r ==> e in d || e == (k, v)
  {
    if k in Keys(d) then ReplaceAll(d, k, v)
    else
      assert (d + [(k, v)])[..|d|] == d;
      d + [(k, v)]
  }

  /** `for k, v in es: d[k] = v`, folded from the left as the loop runs. */
  function PutAll<K(==, !new), V>(d: Dict<K, V>, es: seq<(K, V)>): Dict<K, V>
  {
    if es == [] then d
    else Put(PutAll(d, es[..|es| - 1]), es[|es| - 1].0, es[|es| - 1].1)
  }

  /** Last write wins: a key assigned by `es` holds its last value there; any other key is untouched. */
  lemma {:induction false} PutAllGet<K(!new), V>(d: Dict<K, V>, es: seq<(K, V)>, k: K)
    ensures Get(PutAll(d, es), k) == if k in Keys(es) then Get(es, k) else Get(d, k)
  {
    if es != [] {
      PutAllGet(d, es[..|es| - 1], k);
    }
  }

  lemma PutAllStep<K(!new), V>(d: Dict<K, V>, es: seq<(K, V)>)
    requires es != []
    ensures PutAll(d, es) == Put(PutAll(d, es[..|es| - 1]), es[|es| - 1].0, es[|es| - 1].1)
  {
  }

  /** Assigning `a` and then `b` is assigning `a + b`. */
  lemma {:induction false} PutAllConcat<K(!new), V>(d: Dict<K, V>, a: seq<(K, V)>, b: seq<(K, V)>)
    ensures PutAll(PutAll(d, a), b) == PutAll(d, a + b)
  {
    if b == [] {
      assert a + b == a;
    } else {
      var init, last := b[..|b| - 1], b[|b| - 1];
      var es := a + b;
      PutAllConcat(d, a, init);
      assert es[..|es| - 1] == a + init;
      assert es[|es| - 1] == last;
      calc {
        PutAll(d, es);
        { PutAllStep(d, es); }
        Put(PutAll(d, a + init), last.0, last.1);
        Put(PutAll(PutAll(d, a), init), last.0, last.1);
        { PutAllStep(PutAll(d, a), b); }
        PutAll(PutAll(d, a), b);
      }
    }
  }

  /** Keys of a dict built from nothing: each key once, in order of first assignment. */
  lemma {:induction false} PutAllKeys<K(!new), V>(es: seq<(K, V)>)
    ensures Keys(PutAll([], es)) == Dedup(Keys(es))
  {
    if es != [] {
      var init := es[..|es| - 1];
      PutAllKeys(init);
      DedupFacts(Keys(init));
      assert Keys(es)[..|es| - 1] == Keys(init);
    }
  }

  /** Every entry of the result was already in `d` or was assigned from `es`. */
  lemma {:induction false} PutAllEntries<K(!new), V>(d: Dict<K, V>, es: seq<(K, V)>)
    ensures forall e :: e in PutAll(d, es) ==> e in d || e in es
  {
    if es != [] {
      PutAllEntries(d, es[..|es| - 1]);
    }
  }

  /** In a dict whose keys are distinct, each entry is what a lookup of its key returns. */
  lemma {:induction false} GetDistinct<K(!new), V>(d: Dict<K, V>, i: nat)
    requires NoDuplicates(Keys(d))
    requires i < |d|
    ensures Get(d, d[i].0) == Some(d[i].1)
  {
    if i < |d| - 1 {
      var init := d[..|d| - 1];
      assert Keys(d)[i] != Keys(d)[|d| - 1];
      assert NoDuplicates(Keys(init)) by {
        forall a, b | 0 <= a < b < |init| ensures Keys(init)[a] != Keys(init)[b] {
          assert Keys(init)[a] == Keys(d)[a] && Keys(init)[b] == Keys(d)[b];
        }
      }
      GetDistinct(init, i);
    }
  }

  /**
   * `{**a, **b}`: each key once, `a`'s keys first, then the keys only `b`
   * has; `b`'s value wins for the keys both have.
   */
  lemma Spread<K(!new), V>(a: Dict<K, V>, b: Dict<K, V>, k: K)
    ensures Keys(PutAll(PutAll([], a), b)) == Dedup(Keys(a) + Keys(b))
    ensures Get(PutAll(PutAll([], a), b), k) == if k in Keys(b) then Get(b, k) else Get(a, k)
  {
    SpreadKeys(a, b);
    SpreadGet(a, b, k);
  }

  lemma SpreadKeys<K(!new), V>(a: Dict<K, V>, b: Dict<K, V>)
    ensures Keys(PutAll(PutAll([], a), b)) == Dedup(Keys(a) + Keys(b))
  {
    PutAllConcat([], a, b);
    PutAllKeys(a + b);
    KeysConcat(a, b);
  }

  lemma KeysConcat<K, V>(a: Dict<K, V>, b: Dict<K, V>)
    ensures Keys(a + b) == Keys(a) + Keys(b)
  {
    var l, r := Keys(a + b), Keys(a) + Keys(b);
    assert |l| == |r|;
    forall i | 0 <= i < |l| ensures l[i] == r[i] {
      if i < |a| {
        assert (a + b)[i] == a[i];
      } else {
        assert (a + b)[i] == b[i - |a|];
      }
    }
  }

  lemma SpreadGet<K(!new), V>(a: Dict<K, V>, b: Dict<K, V>, k: K)
    ensures Get(PutAll(PutAll([], a), b), k) == if k in Keys(b) then Get(b, k) else Get(a, k)
  {
    PutAllGet(PutAll([], a), b, k);
    PutAllGet([], a, k);
    GetFound(a, k);
  }
}

=== FILE: extraction.dfy ===
/**
 * `extract_json_from_response`: pulling a JSON value out of the model's reply.
 * Decoding itself is the caller's `parse`, standing for `json.loads`
 * (`None` when it raises).
 */
module Extraction {
  import opened Wrappers
  import opened JsonData

  /** The characters for which Python's `str.isspace()` holds, which `str.strip()` removes. */
  predicate IsPySpace(c: char) {
    var n := c as int;
    || 9 <= n <= 13
    || 28 <= n <= 32
    || n == 0x85 || n == 0xA0 || n == 0x1680
    || 0x2000 <= n <= 0x200A
    || n == 0x2028 || n == 0x2029 || n == 0x202F || n == 0x205F || n == 0x3000
  }

  function LeadingSpaces(s: string): (n: nat)
    ensures n <= |s|
    ensures forall k :: 0 <= k < n ==> IsPySpace(s[k])
    ensures n < |s| ==> !IsPySpace(s[n])
  {
    if s != [] && IsPySpace(s[0]) then 1 + LeadingSpaces(s[1..]) else 0
  }

  function TrailingSpaces(s: string): (n: nat)
    ensures n <= |s|
    ensures forall k :: |s| - n <= k < |s| ==> IsPySpace(s[k])
    ensures n < |s| ==> !IsPySpace(s[|s| - 1 - n])
  {
    if s != [] && IsPySpace(s[|s| - 1]) then 1 + TrailingSpaces(s[..|s| - 1]) else 0
  }

  /** `s.strip()`: the middle of `s` once every leading and trailing space is gone. */
  function Strip(s: string): (r: string)
    ensures exists i, j :: 0 <= i <= j <= |s| && r == s[i..j]
                           && (forall k :: 0 <= k < i ==> IsPySpace(s[k]))
                           && (forall k :: j <= k < |s| ==> IsPySpace(s[k]))
    ensures r != [] ==> !IsPySpace(r[0]) && !IsPySpace(r[|r| - 1])
  {
    var a := LeadingSpaces(s);
    var t := s[a..];
    var b := TrailingSpaces(t);
    assert t[..|t| - b] == s[a..a + |t| - b];
    t[..|t| - b]
  }

  predicate StartsWith(s: string, p: string) {
    |p| <= |s| && s[..|p|] == p
  }

  /** `s.endswith(p)`, compared character by character. */
  predicate EndsWith(s: string, p: string) {
    |p| <= |s| && forall k :: 0 <= k < |p| ==> s[|s| - |p| + k] == p[k]
  }

  /** `re.sub(r"^```(?:json)?\n?", "", s)`: an opening fence, its optional `json` tag and one newline. */
  function RemoveOpeningFence(s: string): (r: string)
    ensures exists n :: 0 <= n <= |s| && r == s[n..]
  {
    if !StartsWith(s, "```") then
      assert s[0..] == s;
      s
    else
      var t := s[3..];
      var u := if StartsWith(t, "json") then t[4..] else t;
      if StartsWith(u, "\n") then u[1..] else u
  }

  /**
   * `re.sub(r"\n?```$", "", s)`: a closing fence with one optional newline
   * before it. Without MULTILINE, `$` matches at the end and also just before
   * a final newline, which then survives.
   */
  function RemoveClosingFence(s: string): (r: string)
    ensures exists n :: 0 <= n <= |s| && (r == s[..n] || r == s[..n] + "\n")
  {
    if EndsWith(s, "\n```") then s[..|s| - 4]
    else if EndsWith(s, "```") then s[..|s| - 3]
    else if EndsWith(s, "\n```\n") then s[..|s| - 5] + "\n"
    else if EndsWith(s, "```\n") then s[..|s| - 4] + "\n"
    else
      assert s[..|s|] == s;
      s
  }

  /**
   * `^```(?:json)?\n?` matches the first `n` characters of `s`. For this
   * pattern the greedy match is the longest of these.
   */
  predicate OpeningMatch(s: string, n: nat) {
    && n <= |s|
    && (s[..n] == "```json\n" || s[..n] == "```json" || s[..n] == "```\n" || s[..n] == "```")
  }

  /** The characters an opening match consists of. */
  predicate OpeningChars(s: string, n: nat) {
    && n <= |s| && (n == 3 || n == 4 || n == 7 || n == 8)
    && s[0] == '`' && s[1] == '`' && s[2] == '`'
    && (n == 4 ==> s[3] == '\n')
    && (n >= 7 ==> s[3] == 'j' && s[4] == 's' && s[5] == 'o' && s[6] == 'n')
    && (n == 8 ==> s[7] == '\n')
  }

  lemma OpeningMatchChars(s: string, n: nat)
    ensures OpeningMatch(s, n) <==> OpeningChars(s, n)
  {
    if n <= |s| {
      var h := s[..n];
      assert forall k :: 0 <= k < n ==> h[k] == s[k];
      if OpeningChars(s, n) {
        if n == 3 {
          assert h == "```";
        } else if n == 4 {
          assert h == "```\n";
        } else if n == 7 {
          assert h == "```json";
        } else {
          assert h == "```json\n";
        }
      }
    }
  }

  lemma OpensWithFence(s: string)
    ensures StartsWith(s, "```") <==> 3 <= |s| && s[0] == '`' && s[1] == '`' && s[2] == '`'
  {
    if 3 <= |s| {
      var h := s[..3];
      assert h[0] == s[0] && h[1] == s[1] && h[2] == s[2];
      if s[0] == '`' && s[1] == '`' && s[2] == '`' {
        assert h == "```";
      }
    }
  }

  lemma JsonAt(s: string, i: nat)
    requires i <= |s|
    ensures StartsWith(s[i..], "json") <==>
              i + 4 <= |s| && s[i] == 'j' && s[i + 1] == 's' && s[i + 2] == 'o' && s[i + 3] == 'n'
  {
    if i + 4 <= |s| {
      var h := s[i..][..4];
      assert h[0] == s[i] && h[1] == s[i + 1] && h[2] == s[i + 2] && h[3] == s[i + 3];
      if s[i] == 'j' && s[i + 1] == 's' && s[i + 2] == 'o' && s[i + 3] == 'n' {
        assert h == "json";
      }
    }
  }

  lemma NewlineAt(s: string, i: nat)
    requires i <= |s|
    ensures StartsWith(s[i..], "\n") <==> i < |s| && s[i] == '\n'
  {
    if i < |s| {
      assert s[i..][..1] == [s[i]];
    }
  }

  /** The opening substitution removes `n` characters, `n` fixed by the characters after the fence. */
  lemma OpeningRemovedAt(s: string, n: nat)
    requires 3 <= |s| && s[0] == '`' && s[1] == '`' && s[2] == '`'
    requires var json := 7 <= |s| && s[3] == 'j' && s[4] == 's' && s[5] == 'o' && s[6] == 'n';
             n == if json then (if 8 <= |s| && s[7] == '\n' then 8 else 7)
                  else if 4 <= |s| && s[3] == '\n' then 4 else 3
    ensures RemoveOpeningFence(s) == s[n..]
  {
    OpensWithFence(s);
    var t := s[3..];
    JsonAt(s, 3);
    if StartsWith(t, "json") {
      assert t[4..] == s[7..];
      NewlineAt(s, 7);
      if StartsWith(s[7..], "\n") {
        assert s[7..][1..] == s[8..];
      }
    } else {
      NewlineAt(s, 3);
      if StartsWith(t, "\n") {
        assert t[1..] == s[4..];
      }
    }
  }

  /** The opening substitution removes the longest fence the pattern matches, and nothing when none does. */
  lemma OpeningFenceIsLongestMatch(s: string)
    ensures (exists n: nat :: OpeningMatch(s, n)) <==> StartsWith(s, "```")
    ensures StartsWith(s, "```") ==>
      exists n: nat :: OpeningMatch(s, n) && RemoveOpeningFence(s) == s[n..]
                  && forall m: nat :: OpeningMatch(s, m) ==> m <= n
    ensures !StartsWith(s, "```") ==> RemoveOpeningFence(s) == s
  {
    OpensWithFence(s);
    forall m: nat | OpeningMatch(s, m) ensures StartsWith(s, "```") {
      OpeningMatchChars(s, m);
    }
    if StartsWith(s, "```") {
      var json := 7 <= |s| && s[3] == 'j' && s[4] == 's' && s[5] == 'o' && s[6] == 'n';
      var n := if json then (if 8 <= |s| && s[7] == '\n' then 8 else 7)
               else if 4 <= |s| && s[3] == '\n' then 4 else 3;
      OpeningMatchChars(s, n);
      OpeningRemovedAt(s, n);
      forall m: nat | OpeningMatch(s, m) ensures m <= n {
        OpeningMatchChars(s, m);
      }
    }
  }

  /**
   * `\n?```$` matches `s[i..j]`. Without MULTILINE, `$` holds at the end and
   * just before a final newline.
   */
  predicate ClosingMatch(s: string, i: nat, j: nat) {
    && i <= j <= |s|
    && (s[i..j] == "\n```" || s[i..j] == "```")
    && (j == |s| || (j + 1 == |s| && s[j] == '\n'))
  }

  /** The characters a closing match consists of. */
  predicate ClosingChars(s: string, i: nat, j: nat) {
    && 3 <= j <= |s| && (i == j - 3 || i == j - 4)
    && s[j - 3] == '`' && s[j - 2] == '`' && s[j - 1] == '`'
    && (i == j - 4 ==> s[i] == '\n')
    && (j == |s| || (j + 1 == |s| && s[j] == '\n'))
  }

  lemma ClosingMatchChars(s: string, i: nat, j: nat)
    ensures ClosingMatch(s, i, j) <==> ClosingChars(s, i, j)
  {
    if i <= j <= |s| {
      var h := s[i..j];
      assert forall k :: 0 <= k < j - i ==> h[k] == s[i + k];
      if ClosingChars(s, i, j) {
        if i == j - 3 {
          assert h == "```";
        } else {
          assert h == "\n```";
        }
      }
    }
  }

  /** The branch of the closing substitution taken, read off the last five characters. */
  lemma ClosingBranches(s: string)
    ensures var n := |s|;
            var fence := 3 <= n && s[n - 3] == '`' && s[n - 2] == '`' && s[n - 1] == '`';
            var fenceNl := 4 <= n && s[n - 4] == '`' && s[n - 3] == '`' && s[n - 2] == '`' && s[n - 1] == '\n';
            && (EndsWith(s, "```") <==> fence)
            && (EndsWith(s, "\n```") <==> fence && 4 <= n && s[n - 4] == '\n')
            && (EndsWith(s, "```\n") <==> fenceNl)
            && (EndsWith(s, "\n```\n") <==> fenceNl && 5 <= n && s[n - 5] == '\n')
  {
    EndsWithThree(s, '`', '`', '`');
    EndsWithFour(s, '\n', '`', '`', '`');
    EndsWithFour(s, '`', '`', '`', '\n');
    EndsWithFive(s, '\n', '`', '`', '`', '\n');
  }

  lemma EndsWithThree(s: string, a: char, b: char, c: char)
    ensures EndsWith(s, [a, b, c]) <==> 3 <= |s| && s[|s| - 3] == a && s[|s| - 2] == b && s[|s| - 1] == c
  {
    var p, n := [a, b, c], |s|;
    if 3 <= n {
      assert s[n - 3 + 0] == s[n - 3] && s[n - 3 + 1] == s[n - 2] && s[n - 3 + 2] == s[n - 1];
      assert p[0] == a && p[1] == b && p[2] == c;
      if s[n - 3] == a && s[n - 2] == b && s[n - 1] == c {
        forall k | 0 <= k < 3 ensures s[n - 3 + k] == p[k] {
          assert k == 0 || k == 1 || k == 2;
        }
      }
    }
  }

  lemma EndsWithFour(s: string, a: char, b: char, c: char, d: char)
    ensures EndsWith(s, [a, b, c, d]) <==>
              4 <= |s| && s[|s| - 4] == a && s[|s| - 3] == b && s[|s| - 2] == c && s[|s| - 1] == d
  {
    var p, n := [a, b, c, d], |s|;
    if 4 <= n {
      assert s[n - 4 + 0] == s[n - 4] && s[n - 4 + 1] == s[n - 3] && s[n - 4 + 2] == s[n - 2] && s[n - 4 + 3] == s[n - 1];
      assert p[0] == a && p[1] == b && p[2] == c && p[3] == d;
      if s[n - 4] == a && s[n - 3] == b && s[n - 2] == c && s[n - 1] == d {
        forall k | 0 <= k < 4 ensures s[n - 4 + k] == p[k] {
          assert k == 0 || k == 1 || k == 2 || k == 3;
        }
      }
    }
  }

  lemma EndsWithFive(s: string, a: char, b: char, c: char, d: char, e: char)
    ensures EndsWith(s, [a, b, c, d, e]) <==>
              5 <= |s| && s[|s| - 5] == a && s[|s| - 4] == b && s[|s| - 3] == c && s[|s| - 2] == d && s[|s| - 1] == e
  {
    var p, n := [a, b, c, d, e], |s|;
    if 5 <= n {
      assert s[n - 5 + 0] == s[n - 5] && s[n - 5 + 1] == s[n - 4] && s[n - 5 + 2] == s[n - 3];
      assert s[n - 5 + 3] == s[n - 2] && s[n - 5 + 4] == s[n - 1];
      assert p[0] == a && p[1] == b && p[2] == c && p[3] == d && p[4] == e;
      if s[n - 5] == a && s[n - 4] == b && s[n - 3] == c && s[n - 2] == d && s[n - 1] == e {
        forall k | 0 <= k < 5 ensures s[n - 5 + k] == p[k] {
          assert k == 0 || k == 1 || k == 2 || k == 3 || k == 4;
        }
      }
    }
  }

  /**
   * The closing substitution removes the leftmost match of the pattern, and
   * nothing when there is none. Every match overlaps the one removed, so the
   * substitution, which resumes after it, finds no second one.
   */
  lemma ClosingFenceIsLeftmostMatch(s: string)
    ensures (exists i: nat, j: nat :: ClosingMatch(s, i, j)) ==>
      exists i: nat, j: nat :: ClosingMatch(s, i, j) && RemoveClosingFence(s) == s[..i] + s[j..]
                     && forall i': nat, j': nat :: ClosingMatch(s, i', j') ==> i <= i' < j
    ensures (forall i: nat, j: nat :: !ClosingMatch(s, i, j)) ==> RemoveClosingFence(s) == s
  {
    var n := |s|;
    var fence := 3 <= n && s[n - 3] == '`' && s[n - 2] == '`' && s[n - 1] == '`';
    var fenceNl := 4 <= n && s[n - 4] == '`' && s[n - 3] == '`' && s[n - 2] == '`' && s[n - 1] == '\n';
    if fence && 4 <= n && s[n - 4] == '\n' {
      LeftmostFrom(s, n - 4, n);
    } else if fence {
      LeftmostFrom(s, n - 3, n);
    } else if fenceNl && 5 <= n && s[n - 5] == '\n' {
      LeftmostFrom(s, n - 5, n - 1);
    } else if fenceNl {
      LeftmostFrom(s, n - 4, n - 1);
    } else {
      NoClosingMatch(s);
    }
  }

  lemma NoClosingMatch(s: string)
    requires !(3 <= |s| && s[|s| - 3] == '`' && s[|s| - 2] == '`' && s[|s| - 1] == '`')
    requires !(4 <= |s| && s[|s| - 4] == '`' && s[|s| - 3] == '`' && s[|s| - 2] == '`' && s[|s| - 1] == '\n')
    ensures forall i: nat, j: nat :: !ClosingMatch(s, i, j)
    ensures RemoveClosingFence(s) == s
  {
    forall i: nat, j: nat | ClosingMatch(s, i, j) ensures false {
      ClosingMatchChars(s, i, j);
    }
    NoFenceKept(s);
  }

  lemma NoFenceKept(s: string)
    requires !(3 <= |s| && s[|s| - 3] == '`' && s[|s| - 2] == '`' && s[|s| - 1] == '`')
    requires !(4 <= |s| && s[|s| - 4] == '`' && s[|s| - 3] == '`' && s[|s| - 2] == '`' && s[|s| - 1] == '\n')
    ensures RemoveClosingFence(s) == s
  {
    ClosingBranches(s);
  }

  /** A match that no other match precedes, and that every match overlaps, is the one removed. */
  lemma LeftmostFrom(s: string, i: nat, j: nat)
    requires ClosingChars(s, i, j)
    requires i == j - 4 || i == 0 || s[i - 1] != '\n'
    ensures ClosingMatch(s, i, j)
    ensures RemoveClosingFence(s) == s[..i] + s[j..]
    ensures forall i': nat, j': nat :: ClosingMatch(s, i', j') ==> i <= i' < j
  {
    ClosingMatchChars(s, i, j);
    RemovedFrom(s, i, j);
    forall i': nat, j': nat | ClosingMatch(s, i', j') ensures i <= i' < j {
      ClosingMatchChars(s, i', j');
    }
  }

  lemma RemovedFrom(s: string, i: nat, j: nat)
    requires ClosingChars(s, i, j)
    requires i == j - 4 || i == 0 || s[i - 1] != '\n'
    ensures RemoveClosingFence(s) == s[..i] + s[j..]
  {
    ClosingBranches(s);
    if j == |s| {
      assert s[j..] == [];
    } else {
      assert s[j..] == "\n";
    }
  }


  /** The text handed to the decoder: stripped, and unfenced when it starts with a fence. */
  function CleanResponse(text: string): (r: string)
    ensures !StartsWith(Strip(text), "```") ==> r == Strip(text)
  {
    var t := Strip(text);
    if StartsWith(t, "```") then RemoveClosingFence(RemoveOpeningFence(t)) else t
  }

  function FirstIndex(s: string, c: char): (r: Option<nat>)
    ensures r.Some? ==> r.value < |s| && s[r.value] == c && forall k :: 0 <= k < r.value ==> s[k] != c
    ensures r.None? ==> forall k :: 0 <= k < |s| ==> s[k] != c
  {
    if s == [] then None
    else if s[0] == c then Some(0)
    else match FirstIndex(s[1..], c)
      case Some(i) => Some(i + 1)
      case None => None
  }

  function LastIndex(s: string, c: char): (r: Option<nat>)
    ensures r.Some? ==> r.value < |s| && s[r.value] == c && forall k :: r.value < k < |s| ==> s[k] != c
    ensures r.None? ==> forall k :: 0 <= k < |s| ==> s[k] != c
  {
    if s == [] then None
    else if s[|s| - 1] == c then Some(|s| - 1)
    else LastIndex(s[..|s| - 1], c)
  }

  /**
   * `re.search(r"\{[\s\S]*\}", s)`: the leftmost match starts at the first
   * `{`, and the greedy middle runs to the last `}`.
   */
  function BraceSpan(s: string): (r: Option<string>)
    ensures r.Some? <==> exists i, j :: 0 <= i < j < |s| && s[i] == '{' && s[j] == '}'
    ensures r.Some? ==>
      exists i, j :: 0 <= i < j < |s| && r.value == s[i..j + 1]
                     && s[i] == '{' && s[j] == '}'
                     && (forall k :: 0 <= k < i ==> s[k] != '{')
                     && (forall k :: j < k < |s| ==> s[k] != '}')
  {
    match (FirstIndex(s, '{'), LastIndex(s, '}'))
    case (Some(i), Some(j)) => if i < j then Some(s[i..j + 1]) else None
    case _ => None
  }

  /**
   * `extract_json_from_response`: the cleaned text if it decodes, else the
   * brace span if that decodes, else nothing.
   */
  function ExtractJson(parse: string -> Option<Json>, text: string): (r: Option<Json>)
    ensures parse(CleanResponse(text)).Some? ==> r == parse(CleanResponse(text))
    ensures parse(CleanResponse(text)).None? && BraceSpan(CleanResponse(text)).Some? ==>
              r == parse(BraceSpan(CleanResponse(text)).value)
    ensures r.None? <==>
      && parse(CleanResponse(text)).None?
      && (BraceSpan(CleanResponse(text)).None? || parse(BraceSpan(CleanResponse(text)).value).None?)
    ensures r.Some? ==>
      exists i, j :: 0 <= i <= j <= |CleanResponse(text)| && parse(CleanResponse(text)[i..j]) == r
  {
    var t := CleanResponse(text);
    match parse(t)
    case Some(v) =>
      assert t[0..|t|] == t;
      Some(v)
    case None =>
      match BraceSpan(t)
      case Some(span) => parse(span)
      case None => None
  }

  /** A reply fenced as a `json` code block, or as an untagged one, is unwrapped to exactly its body. */
  lemma FencedRoundTrip(body: string)
    ensures CleanResponse("```json\n" + body + "\n```") == body
    ensures CleanResponse("```\n" + body + "\n```") == body
  {
    FencedBody("```json\n", body);
    FencedBody("```\n", body);
  }

  lemma FencedBody(opening: string, body: string)
    requires opening == "```json\n" || opening == "```\n"
    ensures CleanResponse(opening + body + "\n```") == body
  {
    var s := opening + body + "\n```";
    assert !IsPySpace(s[0]) && !IsPySpace(s[|s| - 1]);
    StripUnchanged(s);
    assert s[..3] == opening[..3];
    OpeningRemoved(opening, body + "\n```");
    assert s == opening + (body + "\n```");
    ClosingRemoved(body);
  }

  lemma OpeningRemoved(opening: string, rest: string)
    requires opening == "```json\n" || opening == "```\n"
    ensures RemoveOpeningFence(opening + rest) == rest
  {
    var s := opening + rest;
    assert s[..3] == "```";
    var t := s[3..];
    assert t == opening[3..] + rest;
    if opening == "```json\n" {
      assert t[..4] == "json";
      assert t[4..] == "\n" + rest;
      assert (t[4..])[..1] == "\n";
    } else {
      assert t[0] == '\n';
      assert t[..1] == "\n";
    }
  }

  lemma ClosingRemoved(body: string)
    ensures RemoveClosingFence(body + "\n```") == body
  {
    var s := body + "\n```";
    assert s[|s| - 4..] == "\n```";
    assert s[..|s| - 4] == body;
  }

  lemma StripUnchanged(s: string)
    requires s != [] && !IsPySpace(s[0]) && !IsPySpace(s[|s| - 1])
    ensures Strip(s) == s
  {
    assert LeadingSpaces(s) == 0;
    assert TrailingSpaces(s) == 0;
    assert s[0..][..|s|] == s;
  }

  /** A fenced reply whose body decodes yields that decoded value. */
  lemma FencedReplyDecodes(parse: string -> Option<Json>, body: string)
    requires parse(body).Some?
    ensures ExtractJson(parse, "```json\n" + body + "\n```") == parse(body)
    ensures ExtractJson(parse, "```\n" + body + "\n```") == parse(body)
  {
    FencedRoundTrip(body);
  }
}

=== FILE: fetcher.dfy ===
/**
 * The fetch run of the price updater: choosing the areas of a region,
 * asking the language model for each area's prices, keeping the replies
 * that carry both price tables, and merging them into the stored document.
 *
 * The model client is the parameter `ask`: `ask(i)(name, city)` is the text
 * of the reply to the i-th request (counting from 0), whose prompt names the
 * area and the city, or `None` when the client raised.
 */
module Fetcher {
  import opened Wrappers
  import opened Sequences
  import opened Dicts
  import opened JsonData
  import opened Extraction
  import opened Merge
  import Schema

  /** The two hard-coded area lists, one per city. */
  datatype AreaTables = AreaTables(mumbai: seq<Json>, pune: seq<Json>)

  /** The areas a run covers; an unknown region raises `ValueError`. */
  function AreasForRegion(region: string, tables: AreaTables): (r: Result<seq<Json>, Exception>)
    ensures r.Failure? <==> region != "mumbai" && region != "pune" && region != "all"
    ensures r.Failure? ==> r.error == ValueError
    ensures region == "mumbai" ==> r == Success(tables.mumbai)
    ensures region == "pune" ==> r == Success(tables.pune)
  {
    if region == "mumbai" then Success(tables.mumbai)
    else if region == "pune" then Success(tables.pune)
    else if region == "all" then Success(tables.mumbai + tables.pune)
    else Failure(ValueError)
  }

  /** The city named in the prompts: "India" for any region that is not a single city. */
  function CityForRegion(region: string): (city: string)
    ensures city == "India" <==> region != "mumbai" && region != "pune"
    ensures city in {"Mumbai", "Pune", "India"}
    ensures region == "mumbai" <==> city == "Mumbai"
    ensures region == "pune" <==> city == "Pune"
  {
    if region == "mumbai" then "Mumbai"
    else if region == "pune" then "Pune"
    else "India"
  }

  /**
   * The areas of every accepted region agree with the city its prompts name:
   * a single city's table for that city, both tables for "India".
   */
  lemma RegionMatchesCity(region: string, tables: AreaTables)
    requires AreasForRegion(region, tables).Success?
    ensures var areas := AreasForRegion(region, tables).value;
            && (CityForRegion(region) == "Mumbai" ==> areas == tables.mumbai)
            && (CityForRegion(region) == "Pune" ==> areas == tables.pune)
            && (CityForRegion(region) == "India" <==> region == "all")
            && (CityForRegion(region) == "India" ==> areas == tables.mumbai + tables.pune)
  {
  }

  /** "all" covers the Mumbai areas followed by the Pune areas, and is prompted with "India". */
  lemma AllCoversBothCities(tables: AreaTables)
    ensures AreasForRegion("all", tables).Success?
    ensures AreasForRegion("all", tables).value ==
            AreasForRegion("mumbai", tables).value + AreasForRegion("pune", tables).value
    ensures CityForRegion("all") == "India"
  {
  }

  /** Python truth value of a decoded value. */
  predicate Truthy(j: Json) {
    match j
    case JNull => false
    case JBool(b) => b
    case JInt(i) => i != 0
    case JReal(x) => x != 0.0
    case JString(s) => |s| > 0
    case JArray(items) => |items| > 0
    case JObject(fields) => |fields| > 0
  }

  /** `needle` occurs in `hay` at some position (the empty string occurs everywhere). */
  predicate IsSubstring(needle: string, hay: string)
    decreases |hay|
  {
    if |needle| > |hay| then false
    else hay[..|needle|] == needle || (|hay| > 0 && IsSubstring(needle, hay[1..]))
  }

  /** `needle in hay` for a string needle: a key of a dict, an item of a list, a substring of a string. */
  function Contains(needle: string, hay: Json): (r: Result<bool, Exception>)
    ensures r.Failure? <==> !(hay.JObject? || hay.JArray? || hay.JString?)
    ensures hay.JObject? ==> r == Success(needle in Keys(hay.fields))
  {
    match hay
    case JObject(fields) => Success(needle in Keys(fields))
    case JArray(items) => Success(JString(needle) in items)
    case JString(s) => Success(IsSubstring(needle, s))
    case _ => Failure(TypeError)
  }

  /** `prices and "buy" in prices and "rent" in prices`, short-circuiting left to right. */
  function Accepts(prices: Json): (r: Result<bool, Exception>)
    ensures r.Failure? <==> Truthy(prices) && !(prices.JObject? || prices.JArray? || prices.JString?)
    ensures r.Failure? ==> r.error == TypeError
    ensures prices.JObject? ==> r == Success(AcceptedReply(prices))
  {
    if !Truthy(prices) then Success(false)
    else
      var hasBuy :- Contains("buy", prices);
      if !hasBuy then Success(false) else Contains("rent", prices)
  }

  /** `{**area, **prices}`: both must be mappings; later keys overwrite earlier ones. */
  function Overlay(area: Json, prices: Json): (r: Result<Json, Exception>)
    ensures r.Success? <==> area.JObject? && prices.JObject?
    ensures r.Success? ==> r.value.JObject?
  {
    if area.JObject? && prices.JObject? then
      Success(JObject(PutAll(PutAll([], area.fields), prices.fields)))
    else Failure(TypeError)
  }

  /** `area["name"]`. */
  function NameOf(area: Json): (r: Result<Json, Exception>)
    ensures r.Success? <==> area.JObject? && "name" in Keys(area.fields)
  {
    GetFound(if area.JObject? then area.fields else [], "name");
    if !area.JObject? then Failure(TypeError)
    else if Get(area.fields, "name").None? then Failure(KeyError)
    else Success(Get(area.fields, "name").value)
  }

  /** The reply decoded to a dict that has both price tables. */
  predicate AcceptedReply(prices: Json) {
    prices.JObject? && "buy" in Keys(prices.fields) && "rent" in Keys(prices.fields)
  }

  /** The decoded reply to the prompt for `name` in `city`; `None` when the client raised or nothing decoded. */
  function ReplyPrices(name: Json, city: string, ask: (Json, string) -> Option<string>,
                       parse: string -> Option<Json>): Option<Json> {
    match ask(name, city)
    case None => None
    case Some(text) => ExtractJson(parse, text)
  }

  /**
   * The acceptance test and the overlay. A decoded list or string that
   * contains "buy" and "rent" passes the test but cannot be spread into a
   * dict; that `TypeError` is caught like any other failure.
   */
  function AcceptAndOverlay(area: Json, prices: Json): (r: Option<Json>)
    ensures r.Some? <==> area.JObject? && AcceptedReply(prices)
    ensures r.Some? ==> r.value.JObject?
  {
    match Accepts(prices)
    case Success(true) =>
      (match Overlay(area, prices)
       case Success(merged) => Some(merged)
       case Failure(_) => None)
    case _ => None
  }

  /**
   * `fetch_prices_for_area`. Reading the name happens outside the `try` and
   * can raise; everything after it is caught and turned into `None`.
   */
  function FetchPricesForArea(area: Json, city: string, ask: (Json, string) -> Option<string>,
                              parse: string -> Option<Json>): (r: Result<Option<Json>, Exception>)
    ensures r.Failure? <==> NameOf(area).Failure?
    ensures r.Failure? ==> r.error == (if area.JObject? then KeyError else TypeError)
  {
    var name :- NameOf(area);
    Success(match ReplyPrices(name, city, ask, parse)
            case None => None
            case Some(prices) => AcceptAndOverlay(area, prices))
  }

  /**
   * The table's record with the reply's fields laid over it: the reply's keys
   * win, the others keep the table's values, and both price tables are present.
   */
  lemma OverlayFields(area: Json, prices: Json, k: string)
    requires AcceptAndOverlay(area, prices).Some?
    ensures var v := AcceptAndOverlay(area, prices).value;
            && Keys(v.fields) == Dedup(Keys(area.fields) + Keys(prices.fields))
            && Get(v.fields, k) == (if k in Keys(prices.fields) then Get(prices.fields, k) else Get(area.fields, k))
            && AcceptedReply(v)
  {
    var v := AcceptAndOverlay(area, prices).value;
    assert v == JObject(PutAll(PutAll([], area.fields), prices.fields));
    Spread(area.fields, prices.fields, k);
    DedupFacts(Keys(area.fields) + Keys(prices.fields));
  }

  /**
   * An area gets prices exactly when the reply decodes to a dict holding both
   * "buy" and "rent"; the result then carries the reply's fields over the table's.
   */
  lemma FetchAccepts(area: Json, city: string, ask: (Json, string) -> Option<string>,
                     parse: string -> Option<Json>, k: string)
    requires NameOf(area).Success?
    ensures var r := FetchPricesForArea(area, city, ask, parse);
            var prices := ReplyPrices(NameOf(area).value, city, ask, parse);
            && (r.value.Some? <==> prices.Some? && AcceptedReply(prices.value))
            && (r.value.Some? ==>
                  && Keys(r.value.value.fields) == Dedup(Keys(area.fields) + Keys(prices.value.fields))
                  && Get(r.value.value.fields, k) ==
                     (if k in Keys(prices.value.fields) then Get(prices.value.fields, k) else Get(area.fields, k))
                  && AcceptedReply(r.value.value))
  {
    var prices := ReplyPrices(NameOf(area).value, city, ask, parse);
    if prices.Some? && AcceptAndOverlay(area, prices.value).Some? {
      OverlayFields(area, prices.value, k);
    }
  }

  /** The present values, in order. */
  function Somes<T(!new)>(xs: seq<Option<T>>): (r: seq<T>)
    ensures |r| <= |xs|
    ensures forall v :: v in r <==> Some(v) in xs
  {
    if xs == [] then []
    else
      var init := Somes(xs[..|xs| - 1]);
      assert xs == xs[..|xs| - 1] + [xs[|xs| - 1]];
      match xs[|xs| - 1]
      case Some(v) => init + [v]
      case None => init
  }

  /** A request's outcome: the name lookup raised, or the fetched record if any. */
  type Outcome = Result<Option<Json>, Exception>

  /**
   * The loop over the outcomes, in order: the first raised exception ends
   * it, and otherwise each record fetched is appended.
   */
  function Collect(outs: seq<Outcome>): (r: Result<seq<Json>, Exception>)
    ensures r.Success? <==> forall i :: 0 <= i < |outs| ==> outs[i].Success?
    ensures r.Failure? ==> exists i :: 0 <= i < |outs| && outs[i] == Failure(r.error)
                                      && forall j :: 0 <= j < i ==> outs[j].Success?
    ensures r.Success? ==> |r.value| <= |outs|
  {
    if outs == [] then Success([])
    else
      var init := outs[..|outs| - 1];
      var last := outs[|outs| - 1];
      var prev := Collect(init);
      assert forall j :: 0 <= j < |init| ==> init[j] == outs[j];
      if prev.Failure? then prev
      else if last.Failure? then Failure(last.error)
      else if last.value.Some? then Success(prev.value + [last.value.value])
      else prev
  }

  /** Once an exception has been raised, later requests change nothing. */
  lemma {:induction false} CollectFailureSticks(outs: seq<Outcome>, i: nat)
    requires i <= |outs|
    requires Collect(outs[..i]).Failure?
    ensures Collect(outs) == Collect(outs[..i])
    decreases |outs|
  {
    if i < |outs| {
      var init := outs[..|outs| - 1];
      assert init[..i] == outs[..i];
      CollectFailureSticks(init, i);
    } else {
      assert outs[..i] == outs;
    }
  }

  /** What each request returned, a raised exception counting as nothing. */
  function Settled(outs: seq<Outcome>): (xs: seq<Option<Json>>)
    ensures |xs| == |outs|
  {
    seq(|outs|, i requires 0 <= i < |outs| => if outs[i].Success? then outs[i].value else None)
  }

  /** The collected list is exactly the requests' successful results, in request order. */
  lemma {:induction false} CollectIsTheSuccesses(outs: seq<Outcome>)
    requires Collect(outs).Success?
    ensures Collect(outs).value == Somes(Settled(outs))
  {
    if outs != [] {
      var init := outs[..|outs| - 1];
      CollectIsTheSuccesses(init);
      assert Settled(outs)[..|outs| - 1] == Settled(init);
    }
  }

  /**
   * The outcome of each area's request, taken on its own: one per area, and
   * an area's request raises exactly when its name cannot be read.
   */
  function Outcomes(areas: seq<Json>, city: string, ask: nat -> (Json, string) -> Option<string>,
                    parse: string -> Option<Json>): (outs: seq<Outcome>)
    ensures |outs| == |areas|
    ensures forall i :: 0 <= i < |areas| ==> outs[i] == FetchPricesForArea(areas[i], city, ask(i), parse)
    ensures forall i :: 0 <= i < |areas| ==> (outs[i].Failure? <==> NameOf(areas[i]).Failure?)
  {
    seq(|areas|, i requires 0 <= i < |areas| => FetchPricesForArea(areas[i], city, ask(i), parse))
  }

  /**
   * The areas fetched successfully, in order; the first area without a
   * readable name raises.
   */
  function NewAreas(areas: seq<Json>, city: string, ask: nat -> (Json, string) -> Option<string>,
                    parse: string -> Option<Json>): (r: Result<seq<Json>, Exception>)
    ensures r.Success? <==> forall i :: 0 <= i < |areas| ==> NameOf(areas[i]).Success?
    ensures r.Success? ==> |r.value| <= |areas|
    ensures r.Success? ==> forall v :: v in r.value ==> AcceptedReply(v)
  {
    FetchedAreAccepted(areas, city, ask, parse);
    Collect(Outcomes(areas, city, ask, parse))
  }

  /**
   * `v` is the record built for the i-th area from a reply that decoded to a
   * dict with both price tables.
   */
  ghost predicate BuiltFromReply(v: Json, areas: seq<Json>, i: int, city: string,
                                 ask: nat -> (Json, string) -> Option<string>, parse: string -> Option<Json>) {
    && 0 <= i < |areas|
    && NameOf(areas[i]).Success?
    && var prices := ReplyPrices(NameOf(areas[i]).value, city, ask(i), parse);
       && prices.Some? && AcceptedReply(prices.value)
       && AcceptAndOverlay(areas[i], prices.value) == Some(v)
  }

  /** Every record the loop keeps was built for one of the areas from an accepted reply. */
  lemma FetchedAreAccepted(areas: seq<Json>, city: string, ask: nat -> (Json, string) -> Option<string>,
                           parse: string -> Option<Json>)
    ensures var r := Collect(Outcomes(areas, city, ask, parse));
            r.Success? ==> forall v :: v in r.value ==>
              AcceptedReply(v) && exists i :: BuiltFromReply(v, areas, i, city, ask, parse)
  {
    var outs := Outcomes(areas, city, ask, parse);
    var r := Collect(outs);
    if r.Success? {
      CollectIsTheSuccesses(outs);
      forall v | v in r.value ensures AcceptedReply(v) && exists i :: BuiltFromReply(v, areas, i, city, ask, parse) {
        assert Some(v) in Settled(outs);
        var i :| 0 <= i < |outs| && Settled(outs)[i] == Some(v);
        FetchAccepts(areas[i], city, ask(i), parse, "id");
        assert BuiltFromReply(v, areas, i, city, ask, parse);
      }
    }
  }

  /** The collection loop of `fetch_all_prices`. */
  method CollectNewAreas(areas: seq<Json>, city: string, ask: nat -> (Json, string) -> Option<string>,
                         parse: string -> Option<Json>) returns (r: Result<seq<Json>, Exception>)
    ensures r == NewAreas(areas, city, ask, parse)
  {
    ghost var outs := Outcomes(areas, city, ask, parse);
    var collected := [];
    var i := 0;
    while i < |areas|
      invariant 0 <= i <= |areas|
      invariant Collect(outs[..i]) == Success(collected)
    {
      var outcome := FetchPricesForArea(areas[i], city, ask(i), parse);
      assert outs[..i + 1][..i] == outs[..i];
      if outcome.Failure? {
        CollectFailureSticks(outs, i + 1);
        return Failure(outcome.error);
      }
      if outcome.value.Some? {
        collected := collected + [outcome.value.value];
      }
      i := i + 1;
    }
    assert outs[..i] == outs;
    return Success(collected);
  }

  /** `load_existing_data`: the stored document, or a fresh one when there is no file. */
  function LoadExisting(stored: Option<Json>): (r: Json)
    ensures stored.Some? ==> r == stored.value
    ensures stored.None? ==> ExistingAreas(r) == Success([])
    ensures stored.None? ==> Get(r.fields, "version") == Some(DefaultVersion)
  {
    match stored
    case Some(doc) => doc
    case None => JObject([("version", DefaultVersion), ("areas", JArray([]))])
  }

  /** `fetch_all_prices`: fetch every area of the region, then merge into the stored document. */
  function FetchAllPrices(region: string, tables: AreaTables, ask: nat -> (Json, string) -> Option<string>,
                          parse: string -> Option<Json>, stored: Option<Json>, now: string): (r: Result<Json, Exception>)
    ensures AreasForRegion(region, tables).Failure? ==> r == Failure(ValueError)
    ensures AreasForRegion(region, tables).Success? ==>
      var fetched := NewAreas(AreasForRegion(region, tables).value, CityForRegion(region), ask, parse);
      && (fetched.Failure? ==> r == Failure(fetched.error))
      && (fetched.Success? ==> r == MergePriceData(LoadExisting(stored), fetched.value, now))
    ensures r.Success? ==>
      && AreasForRegion(region, tables).Success?
      && var areas := AreasForRegion(region, tables).value;
         && NewAreas(areas, CityForRegion(region), ask, parse).Success?
         && r == MergePriceData(LoadExisting(stored),
                                NewAreas(areas, CityForRegion(region), ask, parse).value, now)
  {
    var areas :- AreasForRegion(region, tables);
    var city := CityForRegion(region);
    var newAreas :- NewAreas(areas, city, ask, parse);
    MergePriceData(LoadExisting(stored), newAreas, now)
  }

  /** The areas of the stored document and the areas this run fetched, when the run succeeds. */
  ghost predicate RunParts(region: string, tables: AreaTables, ask: nat -> (Json, string) -> Option<string>,
                           parse: string -> Option<Json>, stored: Option<Json>,
                           prior: seq<Json>, fetched: seq<Json>) {
    && AreasForRegion(region, tables).Success?
    && var areas := AreasForRegion(region, tables).value;
       && NewAreas(areas, CityForRegion(region), ask, parse) == Success(fetched)
       && ExistingAreas(LoadExisting(stored)) == Success(prior)
       && Keyed(prior) && Keyed(fetched)
  }

  /**
   * A successful run writes a document whose areas have distinct ids: every
   * id of the stored document or of this run's fetches, once, stored ids in
   * their old places; an area skipped this run keeps its stored record.
   */
  lemma {:induction false} FetchAllKeepsIdsUnique(region: string, tables: AreaTables,
                                                  ask: nat -> (Json, string) -> Option<string>,
                                                  parse: string -> Option<Json>, stored: Option<Json>, now: string)
    requires FetchAllPrices(region, tables, ask, parse, stored, now).Success?
    ensures exists prior, fetched ::
      && RunParts(region, tables, ask, parse, stored, prior, fetched)
      && Schema.Field(FetchAllPrices(region, tables, ask, parse, stored, now).value, "areas")
           == Some(JArray(MergeAreas(prior, fetched)))
      && Keyed(MergeAreas(prior, fetched))
      && NoDuplicates(Ids(MergeAreas(prior, fetched)))
      && Ids(MergeAreas(prior, fetched)) == Dedup(Ids(prior)) + Dedup(Without(Ids(fetched), Ids(prior)))
  {
    var areas := AreasForRegion(region, tables).value;
    var fetched := NewAreas(areas, CityForRegion(region), ask, parse).value;
    var existing := LoadExisting(stored);
    var prior := ExistingAreas(existing).value;
    MergeHeader(existing, fetched, now);
    MergeIds(prior, fetched);
    MergeIdsUnique(prior, fetched);
    assert RunParts(region, tables, ask, parse, stored, prior, fetched);
  }

  /**
   * The result is written without being validated: on the first run, with no
   * stored file and the client raising on every request, the run succeeds
   * with a document that has no areas, which the dataset schema rejects
   * whatever the date-time parser says.
   */
  lemma FirstRunWithNoRepliesFailsSchema(region: string, tables: AreaTables,
                                         ask: nat -> (Json, string) -> Option<string>,
                                         parse: string -> Option<Json>, now: string, isDateTime: Json -> bool)
    requires AreasForRegion(region, tables).Success?
    requires forall a :: a in AreasForRegion(region, tables).value ==> NameOf(a).Success?
    requires forall i: nat, name: Json, city: string :: ask(i)(name, city).None?
    ensures var run := FetchAllPrices(region, tables, ask, parse, None, now);
            && run.Success?
            && Schema.Field(run.value, "areas") == Some(JArray([]))
            && !Schema.ValidDataset(run.value, isDateTime)
  {
    var areas := AreasForRegion(region, tables).value;
    var city := CityForRegion(region);
    var outs := Outcomes(areas, city, ask, parse);
    assert forall i :: 0 <= i < |areas| ==> NameOf(areas[i]).Success? by {
      forall i | 0 <= i < |areas| ensures NameOf(areas[i]).Success? {
        assert areas[i] in areas;
      }
    }
    CollectIsTheSuccesses(outs);
    NothingSettled(outs);
    var existing := LoadExisting(None);
    MergeHeader(existing, [], now);
    assert MergeAreas([], []) == [];
  }

  /** Requests that all come back empty collect nothing. */
  lemma {:induction false} NothingSettled(outs: seq<Outcome>)
    requires forall i :: 0 <= i < |outs| ==> outs[i] == Success(None)
    ensures Somes(Settled(outs)) == []
  {
    if outs != [] {
      var init := outs[..|outs| - 1];
      NothingSettled(init);
      assert Settled(outs)[..|outs| - 1] == Settled(init);
    }
  }
}

=== FILE: json_data.dfy ===
/** The values `json.loads` produces, and the Python exceptions the pipeline can raise. */
module JsonData {
  import opened Dicts

  /**
   * A decoded JSON value. Integers and floats stay apart, as `json.loads`
   * keeps them (`int` versus `float`); objects keep their members in order.
   */
  datatype Json =
    | JNull
    | JBool(b: bool)
    | JInt(i: int)
    | JReal(r: real)
    | JString(s: string)
    | JArray(items: seq<Json>)
    | JObject(fields: Dict<string, Json>)

  /** The exception classes the modelled code can raise. */
  datatype Exception = AttributeError | KeyError | TypeError | ValueError
}

=== FILE: merge.dfy ===
/**
 * `merge_price_data`: folding freshly fetched areas into the existing
 * document, keyed by area id, in a Python dict.
 */
module Merge {
  import opened Wrappers
  import opened Sequences
  import opened Dicts
  import opened JsonData
  import Schema

  /**
   * A dict key as Python compares keys: `True`, `1` and `1.0` are one key,
   * and so are `False`, `0` and `0.0`.
   */
  datatype HashKey = NoneKey | NumKey(n: real) | StrKey(s: string)

  /** Hashing a decoded value: lists and dicts are unhashable. */
  function KeyOf(v: Json): (r: Result<HashKey, Exception>)
    ensures r.Failure? <==> v.JArray? || v.JObject?
    ensures r.Failure? ==> r.error == TypeError
  {
    match v
    case JNull => Success(NoneKey)
    case JBool(b) => Success(NumKey(if b then 1.0 else 0.0))
    case JInt(i) => Success(NumKey(i as real))
    case JReal(r) => Success(NumKey(r))
    case JString(s) => Success(StrKey(s))
    case _ => Failure(TypeError)
  }

  /** The number a decoded scalar stands for, booleans counting as 0 and 1. */
  function NumberOf(v: Json): Option<real> {
    match v
    case JBool(b) => Some(if b then 1.0 else 0.0)
    case JInt(i) => Some(i as real)
    case JReal(x) => Some(x)
    case _ => None
  }

  /** Python's `==` on decoded scalars: numbers by value, strings by content, `None` only with itself. */
  predicate PyEquals(a: Json, b: Json) {
    || (a.JNull? && b.JNull?)
    || (NumberOf(a).Some? && NumberOf(a) == NumberOf(b))
    || (a.JString? && b.JString? && a.s == b.s)
  }

  /** Two hashable values are the same dict key exactly when Python finds them equal. */
  lemma SameKeyIffEqual(a: Json, b: Json)
    requires KeyOf(a).Success? && KeyOf(b).Success?
    ensures KeyOf(a) == KeyOf(b) <==> PyEquals(a, b)
  {
  }

  /** `area["id"]`, used as a dict key. */
  function AreaId(area: Json): (r: Result<HashKey, Exception>)
    ensures r.Success? <==> area.JObject? && Get(area.fields, "id").Some? && KeyOf(Get(area.fields, "id").value).Success?
    ensures area.JObject? && "id" !in Keys(area.fields) ==> r == Failure(KeyError)
    ensures !area.JObject? ==> r == Failure(TypeError)
  {
    GetFound(if area.JObject? then area.fields else [], "id");
    if !area.JObject? then Failure(TypeError)
    else if Get(area.fields, "id").None? then Failure(KeyError)
    else KeyOf(Get(area.fields, "id").value)
  }

  /** Every area has a usable id. */
  predicate Keyed(areas: seq<Json>) {
    forall a :: a in areas ==> AreaId(a).Success?
  }

  function Ids(areas: seq<Json>): seq<HashKey>
    requires Keyed(areas)
  {
    seq(|areas|, i requires 0 <= i < |areas| => AreaId(areas[i]).value)
  }

  /** The `(area["id"], area)` pairs the dict is built from. */
  function Entries(areas: seq<Json>): Dict<HashKey, Json>
    requires Keyed(areas)
  {
    seq(|areas|, i requires 0 <= i < |areas| => (AreaId(areas[i]).value, areas[i]))
  }

  /** Keying the areas one by one; the first area without a usable id raises. */
  function KeyAll(areas: seq<Json>): (r: Result<Dict<HashKey, Json>, Exception>)
    decreases |areas|, 1
    ensures r.Success? <==> Keyed(areas)
    ensures r.Success? ==> r.value == Entries(areas)
    ensures r.Failure? ==> exists a :: a in areas && AreaId(a) == Failure(r.error)
    ensures r.Failure? ==> exists i :: 0 <= i < |areas| && AreaId(areas[i]) == Failure(r.error)
                                       && forall j :: 0 <= j < i ==> AreaId(areas[j]).Success?
  {
    if areas == [] then Success([])
    else
      var k :- AreaId(areas[0]);
      var rest :- KeyAllTail(areas);
      assert forall a :: a in areas ==> a == areas[0] || a in areas[1..];
      Success([(k, areas[0])] + rest)
  }

  /** Keying all but the first area, where the first one has a usable id: a failure there is a failure of the whole list, at the index one further on. */
  function KeyAllTail(areas: seq<Json>): (r: Result<Dict<HashKey, Json>, Exception>)
    requires |areas| >= 1 && AreaId(areas[0]).Success?
    decreases |areas|, 0
    ensures r == KeyAll(areas[1..])
    ensures r.Failure? ==> exists i :: 1 <= i < |areas| && AreaId(areas[i]) == Failure(r.error)
                                       && forall j :: 0 <= j < i ==> AreaId(areas[j]).Success?
  {
    var r := KeyAll(areas[1..]);
    if r.Failure? then
      var i :| 0 <= i < |areas[1..]| && AreaId(areas[1..][i]) == Failure(r.error)
               && forall j :: 0 <= j < i ==> AreaId(areas[1..][j]).Success?;
      assert forall j :: 1 <= j < i + 1 ==> AreaId(areas[j]) == AreaId(areas[1..][j - 1]);
      assert AreaId(areas[i + 1]) == Failure(r.error);
      r
    else r
  }

  /** `{}` has no "id" and `[]` cannot be subscripted by a string: the KeyError of the first one is raised. */
  lemma FirstUnkeyedAreaRaises()
    ensures KeyAll([JObject([]), JArray([])]) == Failure(KeyError)
  {
  }

  /** A `for` loop over a value: a list yields its items, a string its characters, a dict its keys. */
  function Iterate(v: Json): Result<seq<Json>, Exception> {
    match v
    case JArray(items) => Success(items)
    case JString(s) => Success(seq(|s|, i requires 0 <= i < |s| => JString([s[i]])))
    case JObject(fields) => Success(seq(|fields|, i requires 0 <= i < |fields| => JString(fields[i].0)))
    case _ => Failure(TypeError)
  }

  /** `existing.get("areas", [])`, iterated. */
  function ExistingAreas(existing: Json): (r: Result<seq<Json>, Exception>)
    ensures !existing.JObject? ==> r == Failure(AttributeError)
    ensures existing.JObject? && "areas" !in Keys(existing.fields) ==> r == Success([])
    ensures existing.JObject? && Get(existing.fields, "areas").Some? ==>
              var v := Get(existing.fields, "areas").value;
              && (r.Failure? <==> !(v.JArray? || v.JString? || v.JObject?))
              && (v.JArray? ==> r == Success(v.items))
    ensures r.Failure? ==> r.error == (if existing.JObject? then TypeError else AttributeError)
  {
    GetFound(if existing.JObject? then existing.fields else [], "areas");
    match existing
    case JObject(fields) => Iterate(Get(fields, "areas").GetOr(JArray([])))
    case _ => Failure(AttributeError)
  }

  const Disclaimer: string :=
    "Prices shown are indicative bands based on recent public listings, not verified transactions."

  const DefaultVersion: Json := JString("1.0.0")

  /** The document `merge_price_data` returns. */
  function Document(version: Json, now: string, areas: seq<Json>): Json {
    JObject([
      ("version", version),
      ("generated_at", JString(now)),
      ("disclaimer", JString(Disclaimer)),
      ("areas", JArray(areas))])
  }

  /** Each of the document's four keys reads back what was stored under it. */
  lemma DocumentFields(version: Json, now: string, areas: seq<Json>)
    ensures var d := Document(version, now, areas).fields;
            && Get(d, "version") == Some(version)
            && Get(d, "generated_at") == Some(JString(now))
            && Get(d, "disclaimer") == Some(JString(Disclaimer))
            && Get(d, "areas") == Some(JArray(areas))
  {
    var d := Document(version, now, areas).fields;
    assert |"areas"| != |"disclaimer"| && |"areas"| != |"generated_at"| && |"areas"| != |"version"|;
    assert |"disclaimer"| != |"generated_at"| && |"disclaimer"| != |"version"| && |"generated_at"| != |"version"|;
    var d3 := d[..3];
    var d2 := d3[..2];
    var d1 := d2[..1];
    assert Get(d, "disclaimer") == Get(d3, "disclaimer");
    assert Get(d, "generated_at") == Get(d3, "generated_at") == Get(d2, "generated_at");
    assert Get(d, "version") == Get(d3, "version") == Get(d2, "version") == Get(d1, "version");
  }

  /** The dict after both loops, listed: existing areas first, the incoming ones assigned over them. */
  function MergeAreas(existing: seq<Json>, incoming: seq<Json>): seq<Json>
    requires Keyed(existing) && Keyed(incoming)
  {
    Values(PutAll(PutAll([], Entries(existing)), Entries(incoming)))
  }

  /**
   * `merge_price_data(existing, new_areas)` stamped with `now`. It raises when
   * `existing` is not a dict, its `areas` cannot be iterated, or an area has no
   * usable id; otherwise the version is carried over (default "1.0.0") and the
   * disclaimer is the fixed text.
   */
  function MergePriceData(existing: Json, incoming: seq<Json>, now: string): (r: Result<Json, Exception>)
    ensures r.Success? <==>
      && ExistingAreas(existing).Success?
      && Keyed(ExistingAreas(existing).value)
      && Keyed(incoming)
    ensures r.Success? ==>
      && existing.JObject?
      && r.value == Document(Get(existing.fields, "version").GetOr(DefaultVersion), now,
                             MergeAreas(ExistingAreas(existing).value, incoming))
    ensures r.Failure? ==>
      r.error == (if ExistingAreas(existing).Failure? then ExistingAreas(existing).error
                  else if !Keyed(ExistingAreas(existing).value) then KeyAll(ExistingAreas(existing).value).error
                  else KeyAll(incoming).error)
  {
    var prior :- ExistingAreas(existing);
    var storedEntries :- KeyAll(prior);
    var incomingEntries :- KeyAll(incoming);
    Success(Document(Get(existing.fields, "version").GetOr(DefaultVersion), now,
                     Values(PutAll(PutAll([], storedEntries), incomingEntries))))
  }

  lemma EntriesKeys(areas: seq<Json>)
    requires Keyed(areas)
    ensures Keys(Entries(areas)) == Ids(areas)
  {
  }

  /** Each entry pairs an area with its own id. */
  lemma EntryIds(areas: seq<Json>)
    requires Keyed(areas)
    ensures forall e :: e in Entries(areas) ==> AreaId(e.1) == Success(e.0)
  {
    forall e | e in Entries(areas) ensures AreaId(e.1) == Success(e.0) {
      var j :| 0 <= j < |areas| && Entries(areas)[j] == e;
      assert areas[j] in areas;
    }
  }

  /** Listing a dict built from keyed areas gives keyed areas whose ids are the dict's keys. */
  lemma ValuesOfEntries(areas: seq<Json>, m: Dict<HashKey, Json>)
    requires Keyed(areas)
    requires forall e :: e in m ==> e in Entries(areas)
    ensures Keyed(Values(m))
    ensures Ids(Values(m)) == Keys(m)
  {
    EntryIds(areas);
    var r := Values(m);
    forall i | 0 <= i < |r| ensures AreaId(r[i]) == Success(Keys(m)[i]) {
      assert m[i] in m;
    }
  }

  lemma EntriesConcat(a: seq<Json>, b: seq<Json>)
    requires Keyed(a) && Keyed(b)
    ensures Keyed(a + b)
    ensures Entries(a) + Entries(b) == Entries(a + b)
    ensures Ids(a) + Ids(b) == Ids(a + b)
  {
  }

  /** The merged dict is the dict built from the existing areas followed by the incoming ones. */
  lemma MergeAsOneDict(existing: seq<Json>, incoming: seq<Json>)
    requires Keyed(existing) && Keyed(incoming)
    ensures Keyed(existing + incoming)
    ensures MergeAreas(existing, incoming) == Values(PutAll([], Entries(existing + incoming)))
  {
    EntriesConcat(existing, incoming);
    PutAllConcat([], Entries(existing), Entries(incoming));
  }

  /**
   * Ids of the merged list: every id of the existing or incoming areas, once, in
   * first-occurrence order. Existing ids keep their places; ids new to the
   * document follow in the order they first appear among the incoming areas.
   */
  lemma {:induction false} MergeIds(existing: seq<Json>, incoming: seq<Json>)
    requires Keyed(existing) && Keyed(incoming)
    ensures Keyed(MergeAreas(existing, incoming))
    ensures Ids(MergeAreas(existing, incoming)) == Dedup(Ids(existing) + Ids(incoming))
    ensures Ids(MergeAreas(existing, incoming)) == Dedup(Ids(existing)) + Dedup(Without(Ids(incoming), Ids(existing)))
  {
    MergeAsOneDict(existing, incoming);
    var all := existing + incoming;
    var m := PutAll([], Entries(all));
    PutAllKeys(Entries(all));
    PutAllEntries([], Entries(all));
    ValuesOfEntries(all, m);
    EntriesKeys(all);
    EntriesConcat(existing, incoming);
    DedupAppend(Ids(existing), Ids(incoming));
  }

  /** No id occurs twice in the merged list, whose length is the number of distinct ids. */
  lemma MergeIdsUnique(existing: seq<Json>, incoming: seq<Json>)
    requires Keyed(existing) && Keyed(incoming)
    ensures Keyed(MergeAreas(existing, incoming))
    ensures NoDuplicates(Ids(MergeAreas(existing, incoming)))
    ensures |MergeAreas(existing, incoming)| == |Elements(Ids(existing) + Ids(incoming))|
  {
    MergeIds(existing, incoming);
    var ids := Ids(existing) + Ids(incoming);
    DedupFacts(ids);
    SizeMatchesSetIffNoDuplicates(Dedup(ids));
    assert Elements(Dedup(ids)) == Elements(ids);
  }

  /** `a` is the last of `areas` with id `k`. */
  ghost predicate LastWithId(areas: seq<Json>, k: HashKey, a: Json) {
    exists p :: 0 <= p < |areas| && areas[p] == a && AreaId(a) == Success(k)
                && forall q :: p < q < |areas| ==> AreaId(areas[q]) != Success(k)
  }

  lemma LastEntry(areas: seq<Json>, k: HashKey)
    requires Keyed(areas)
    requires Get(Entries(areas), k).Some?
    ensures LastWithId(areas, k, Get(Entries(areas), k).value)
  {
    var d := Entries(areas);
    GetIsLast(d, k);
    var p :| 0 <= p < |d| && d[p] == (k, Get(d, k).value) && forall q :: p < q < |d| ==> d[q].0 != k;
    assert areas[p] in areas;
    forall q | p < q < |areas| ensures AreaId(areas[q]) != Success(k) {
      assert areas[q] in areas;
      assert d[q] == (AreaId(areas[q]).value, areas[q]);
    }
  }

  /** The merged dict has distinct keys, and listing it gives areas carrying those keys as ids. */
  lemma MergedDict(existing: seq<Json>, incoming: seq<Json>)
    requires Keyed(existing) && Keyed(incoming)
    ensures var m := PutAll(PutAll([], Entries(existing)), Entries(incoming));
            && Keyed(Values(m)) && Ids(Values(m)) == Keys(m) && NoDuplicates(Keys(m))
  {
    var all := existing + incoming;
    EntriesConcat(existing, incoming);
    var whole := Entries(all);
    PutAllConcat([], Entries(existing), Entries(incoming));
    var m := PutAll([], whole);
    PutAllEntries([], whole);
    PutAllKeys(whole);
    DedupFacts(Keys(whole));
    ValuesOfEntries(all, m);
  }

  /**
   * The record kept for each id: the last incoming area with that id when there
   * is one, otherwise the last existing area with it.
   */
  lemma {:induction false} MergeLastWriteWins(existing: seq<Json>, incoming: seq<Json>, i: nat)
    requires Keyed(existing) && Keyed(incoming)
    requires i < |MergeAreas(existing, incoming)|
    ensures AreaId(MergeAreas(existing, incoming)[i]).Success?
    ensures var a := MergeAreas(existing, incoming)[i];
            var k := AreaId(a).value;
            if k in Ids(incoming) then LastWithId(incoming, k, a) else LastWithId(existing, k, a)
  {
    var m := PutAll(PutAll([], Entries(existing)), Entries(incoming));
    MergedDict(existing, incoming);
    var r := Values(m);
    var k := Keys(m)[i];
    GetDistinct(m, i);
    assert Get(m, k) == Some(r[i]);
    EntriesKeys(existing);
    EntriesKeys(incoming);
    PutAllGet(PutAll([], Entries(existing)), Entries(incoming), k);
    PutAllGet([], Entries(existing), k);
    if k in Ids(incoming) {
      LastEntry(incoming, k);
    } else {
      LastEntry(existing, k);
    }
  }

  /** An existing id that no incoming area carries keeps its last existing record: a skipped area keeps its data. */
  lemma MergeKeepsUntouched(existing: seq<Json>, incoming: seq<Json>, k: HashKey)
    requires Keyed(existing) && Keyed(incoming)
    requires k in Ids(existing) && k !in Ids(incoming)
    ensures exists i :: 0 <= i < |MergeAreas(existing, incoming)|
                        && AreaId(MergeAreas(existing, incoming)[i]) == Success(k)
                        && LastWithId(existing, k, MergeAreas(existing, incoming)[i])
  {
    MergeIds(existing, incoming);
    var r := MergeAreas(existing, incoming);
    DedupFacts(Ids(existing) + Ids(incoming));
    assert k in Ids(r);
    var i :| 0 <= i < |r| && Ids(r)[i] == k;
    MergeLastWriteWins(existing, incoming, i);
    assert AreaId(r[i]) == Success(k);
  }

  /** For an area with a string id, the dict key and the id text agree. */
  lemma StringIdKey(a: Json)
    requires Schema.Field(a, "id").Some? && Schema.Field(a, "id").value.JString?
    ensures AreaId(a) == Success(StrKey(Schema.IdText(a)))
  {
  }

  /**
   * The merge can never break the unique-id rule of the dataset schema: when
   * every merged area has a string id, the ids counted as a set are as many
   * as the areas. So the merged list passes the schema's area-list rule exactly
   * when it is non-empty and every area passes on its own.
   */
  lemma {:induction false} MergeSatisfiesUniqueIdRule(existing: seq<Json>, incoming: seq<Json>)
    requires Keyed(existing) && Keyed(incoming)
    ensures (forall a :: a in MergeAreas(existing, incoming) ==>
               Schema.Field(a, "id").Some? && Schema.Field(a, "id").value.JString?)
            ==> SizeMatchesSet(Schema.IdTexts(MergeAreas(existing, incoming)))
    ensures Schema.ValidAreaList(Some(JArray(MergeAreas(existing, incoming)))) <==>
            |MergeAreas(existing, incoming)| >= 1 && forall a :: a in MergeAreas(existing, incoming) ==> Schema.ValidArea(a)
  {
    var r := MergeAreas(existing, incoming);
    MergeIdsUnique(existing, incoming);
    if forall a :: a in r ==> Schema.Field(a, "id").Some? && Schema.Field(a, "id").value.JString? {
      var texts := Schema.IdTexts(r);
      forall i, j | 0 <= i < j < |texts| ensures texts[i] != texts[j] {
        assert r[i] in r && r[j] in r;
        StringIdKey(r[i]);
        StringIdKey(r[j]);
        assert Ids(r)[i] != Ids(r)[j];
      }
      SizeMatchesSetIffNoDuplicates(texts);
    }
  }

  /**
   * The merged document's header: its disclaimer passes the schema, and its
   * version passes whenever the stored document's version did or was absent.
   */
  lemma MergeHeader(existing: Json, incoming: seq<Json>, now: string)
    requires MergePriceData(existing, incoming, now).Success?
    ensures var doc := MergePriceData(existing, incoming, now).value;
            && Schema.ValidDisclaimer(Schema.Field(doc, "disclaimer"))
            && Schema.Field(doc, "generated_at") == Some(JString(now))
            && (Schema.Field(existing, "version").None? || Schema.ValidVersion(Schema.Field(existing, "version"))
                ==> Schema.ValidVersion(Schema.Field(doc, "version")))
            && Schema.Field(doc, "areas") == Some(JArray(MergeAreas(ExistingAreas(existing).value, incoming)))
  {
    var version := Get(existing.fields, "version").GetOr(DefaultVersion);
    DocumentFields(version, now, MergeAreas(ExistingAreas(existing).value, incoming));
    DefaultVersionValid();
    assert |Disclaimer| >= 10;
  }

  /** The default version "1.0.0" matches the schema's version pattern. */
  lemma DefaultVersionValid()
    ensures Schema.ValidVersion(Some(DefaultVersion))
  {
    assert Schema.IsVersion("1.0.0");
  }
}

=== FILE: schema.dfy ===
/**
 * The price-data schema: which decoded JSON documents `validate_price_data`
 * accepts, and the typed records it returns for them.
 *
 * Values are checked as already typed: an `int` field takes a JSON integer,
 * a `float` field a JSON integer or float, a `str` field a JSON string.
 * Unknown members of an object are ignored.
 */
module Schema {
  import opened Wrappers
  import opened Sequences
  import opened Dicts
  import opened JsonData

  datatype Confidence = Low | Medium | High
  datatype ZoomLevel = RegionLevel | AreaLevel | MicroLevel

  /** A price range with its confidence. */
  datatype PriceBand = PriceBand(min: int, max: int, confidence: Confidence)

  /** One band per property type. */
  datatype PropertyPrices =
    PropertyPrices(oneRk: PriceBand, oneBhk: PriceBand, twoBhk: PriceBand, threeBhkPlus: PriceBand)

  datatype Area = Area(
    id: string, name: string, region: string,
    lat: real, lng: real, zoomLevel: ZoomLevel,
    buy: PropertyPrices, rent: PropertyPrices)

  /** The root document; `generatedAt` is kept as the JSON value that was accepted. */
  datatype PriceData = PriceData(version: string, generatedAt: Json, disclaimer: string, areas: seq<Area>)

  /** Member `key` of an object; nothing for a missing member or a value that is not an object. */
  function Field(j: Json, key: string): Option<Json> {
    if j.JObject? then Get(j.fields, key) else None
  }

  /** A JSON number as a float field reads it. */
  function Number(f: Option<Json>): Option<real> {
    match f
    case Some(JInt(i)) => Some(i as real)
    case Some(JReal(r)) => Some(r)
    case _ => None
  }

  /** The `Literal["low", "medium", "high"]` of a band. */
  function ConfidenceOf(s: string): Option<Confidence> {
    if s == "low" then Some(Low)
    else if s == "medium" then Some(Medium)
    else if s == "high" then Some(High)
    else None
  }

  function ConfidenceName(c: Confidence): (s: string)
    ensures ConfidenceOf(s) == Some(c)
  {
    match c
    case Low => "low"
    case Medium => "medium"
    case High => "high"
  }

  /** The `Literal["region", "area", "micro"]` of an area. */
  function ZoomOf(s: string): Option<ZoomLevel> {
    if s == "region" then Some(RegionLevel)
    else if s == "area" then Some(AreaLevel)
    else if s == "micro" then Some(MicroLevel)
    else None
  }

  function ZoomName(z: ZoomLevel): (s: string)
    ensures ZoomOf(s) == Some(z)
  {
    match z
    case RegionLevel => "region"
    case AreaLevel => "area"
    case MicroLevel => "micro"
  }

  predicate NonNegativeInt(f: Option<Json>) {
    f.Some? && f.value.JInt? && f.value.i >= 0
  }

  predicate KnownConfidence(f: Option<Json>) {
    f.Some? && f.value.JString? && ConfidenceOf(f.value.s).Some?
  }

  // ----- PriceBand -----

  /** Non-negative integer bounds with `max >= min`, and a confidence from the fixed three. */
  predicate ValidBand(j: Json) {
    && NonNegativeInt(Field(j, "min"))
    && NonNegativeInt(Field(j, "max"))
    && !(Field(j, "max").value.i < Field(j, "min").value.i)
    && KnownConfidence(Field(j, "confidence"))
  }

  /** A band object with exactly the three members. */
  function BandJson(lo: Json, hi: Json, confidence: Json): Json {
    JObject([("min", lo), ("max", hi), ("confidence", confidence)])
  }

  /** `b` holds exactly the numbers and the confidence word of the object `j`. */
  predicate ReadsAs(j: Json, b: PriceBand) {
    && Field(j, "min") == Some(JInt(b.min)) && Field(j, "max") == Some(JInt(b.max))
    && Field(j, "confidence") == Some(JString(ConfidenceName(b.confidence)))
  }

  /** The band built from an accepted object carries its numbers and confidence, in order. */
  function ToBand(j: Json): (b: PriceBand)
    requires ValidBand(j)
    ensures 0 <= b.min <= b.max
    ensures ReadsAs(j, b)
  {
    var c := ConfidenceOf(Field(j, "confidence").value.s).value;
    assert ConfidenceName(c) == Field(j, "confidence").value.s;
    PriceBand(Field(j, "min").value.i, Field(j, "max").value.i, c)
  }

  /** Bounds at zero and equal bounds pass; a negative bound, `max < min` or another confidence word fails. */
  lemma BandAcceptance(lo: int, hi: int, c: string)
    ensures ValidBand(BandJson(JInt(lo), JInt(hi), JString(c)))
            <==> 0 <= lo && 0 <= hi && lo <= hi && (c == "low" || c == "medium" || c == "high")
    ensures ValidBand(BandJson(JInt(0), JInt(0), JString("low")))
    ensures !ValidBand(BandJson(JInt(lo), JInt(hi), JString("Low")))
  {
    BandFields(JInt(lo), JInt(hi), JString(c));
    BandFields(JInt(0), JInt(0), JString("low"));
    BandFields(JInt(lo), JInt(hi), JString("Low"));
    assert ConfidenceOf("Low") == None by {
      assert "Low"[0] != "low"[0];
    }
  }

  lemma BandFields(lo: Json, hi: Json, confidence: Json)
    ensures Field(BandJson(lo, hi, confidence), "min") == Some(lo)
    ensures Field(BandJson(lo, hi, confidence), "max") == Some(hi)
    ensures Field(BandJson(lo, hi, confidence), "confidence") == Some(confidence)
  {
    var d := [("min", lo), ("max", hi), ("confidence", confidence)];
    assert "max" != "min" by { assert "max"[1] != "min"[1]; }
    assert "confidence" != "min" && "confidence" != "max" by { assert |"confidence"| != |"min"|; }
    assert d[..2] == [("min", lo), ("max", hi)];
    assert d[..2][..1] == [("min", lo)];
    assert Get(d[..2][..1], "min") == Some(lo);
    assert Get(d[..2], "min") == Some(lo);
    assert Get(d[..2], "max") == Some(hi);
  }

  // ----- PropertyPrices -----

  /** A cell looked up by its alias ("1rk") or, failing that, by its field name ("one_rk"). */
  function Cell(j: Json, alias: string, name: string): Option<Json> {
    match Field(j, alias)
    case Some(v) => Some(v)
    case None => Field(j, name)
  }

  predicate ValidCell(j: Json, alias: string, name: string) {
    Cell(j, alias, name).Some? && ValidBand(Cell(j, alias, name).value)
  }

  /** All four cells present and valid; a missing cell is an error. */
  predicate ValidPropertyPrices(j: Json) {
    && ValidCell(j, "1rk", "one_rk")
    && ValidCell(j, "1bhk", "one_bhk")
    && ValidCell(j, "2bhk", "two_bhk")
    && ValidCell(j, "3bhk_plus", "three_bhk_plus")
  }

  /** `p` holds exactly the bands of the four cells of `j`, each found by alias or else by field name. */
  predicate PricesReadAs(j: Json, p: PropertyPrices) {
    && Cell(j, "1rk", "one_rk").Some? && ReadsAs(Cell(j, "1rk", "one_rk").value, p.oneRk)
    && Cell(j, "1bhk", "one_bhk").Some? && ReadsAs(Cell(j, "1bhk", "one_bhk").value, p.oneBhk)
    && Cell(j, "2bhk", "two_bhk").Some? && ReadsAs(Cell(j, "2bhk", "two_bhk").value, p.twoBhk)
    && Cell(j, "3bhk_plus", "three_bhk_plus").Some?
    && ReadsAs(Cell(j, "3bhk_plus", "three_bhk_plus").value, p.threeBhkPlus)
  }

  function ToPropertyPrices(j: Json): (p: PropertyPrices)
    requires ValidPropertyPrices(j)
    ensures PricesReadAs(j, p)
    ensures ReadsAs(Cell(j, "1rk", "one_rk").value, p.oneRk) && p.oneRk.min <= p.oneRk.max
    ensures ReadsAs(Cell(j, "1bhk", "one_bhk").value, p.oneBhk) && p.oneBhk.min <= p.oneBhk.max
    ensures ReadsAs(Cell(j, "2bhk", "two_bhk").value, p.twoBhk) && p.twoBhk.min <= p.twoBhk.max
    ensures ReadsAs(Cell(j, "3bhk_plus", "three_bhk_plus").value, p.threeBhkPlus)
            && p.threeBhkPlus.min <= p.threeBhkPlus.max
  {
    PropertyPrices(
      ToBand(Cell(j, "1rk", "one_rk").value),
      ToBand(Cell(j, "1bhk", "one_bhk").value),
      ToBand(Cell(j, "2bhk", "two_bhk").value),
      ToBand(Cell(j, "3bhk_plus", "three_bhk_plus").value))
  }

  /** Dropping any one cell makes the table invalid, whatever the others hold. */
  lemma MissingCellRejected(j: Json, alias: string, name: string)
    requires (alias, name) in {("1rk", "one_rk"), ("1bhk", "one_bhk"), ("2bhk", "two_bhk"), ("3bhk_plus", "three_bhk_plus")}
    requires Field(j, alias).None? && Field(j, name).None?
    ensures !ValidPropertyPrices(j)
  {
  }

  // ----- Area -----

  predicate NonEmptyString(f: Option<Json>) {
    f.Some? && f.value.JString? && |f.value.s| >= 1
  }

  predicate InRange(f: Option<Json>, lo: real, hi: real) {
    Number(f).Some? && lo <= Number(f).value <= hi
  }

  predicate ValidZoom(f: Option<Json>) {
    f.Some? && f.value.JString? && ZoomOf(f.value.s).Some?
  }

  predicate ValidPricesAt(f: Option<Json>) {
    f.Some? && ValidPropertyPrices(f.value)
  }

  /** Non-empty id, name and region, coordinates within bounds, a known zoom level, and both price tables. */
  predicate ValidArea(j: Json) {
    && NonEmptyString(Field(j, "id"))
    && NonEmptyString(Field(j, "name"))
    && NonEmptyString(Field(j, "region"))
    && InRange(Field(j, "lat"), -90.0, 90.0)
    && InRange(Field(j, "lng"), -180.0, 180.0)
    && ValidZoom(Field(j, "zoom_level"))
    && ValidPricesAt(Field(j, "buy"))
    && ValidPricesAt(Field(j, "rent"))
  }

  /** The id of an area object, or "" when it has none. */
  function IdText(j: Json): string {
    match Field(j, "id")
    case Some(JString(s)) => s
    case _ => ""
  }

  /** `a` holds exactly the members of the area object `j`: its strings, its coordinates, its zoom word and both tables. */
  predicate ReadsAreaAs(j: Json, a: Area) {
    && Field(j, "id") == Some(JString(a.id))
    && Field(j, "name") == Some(JString(a.name))
    && Field(j, "region") == Some(JString(a.region))
    && Number(Field(j, "lat")) == Some(a.lat)
    && Number(Field(j, "lng")) == Some(a.lng)
    && Field(j, "zoom_level") == Some(JString(ZoomName(a.zoomLevel)))
    && Field(j, "buy").Some? && PricesReadAs(Field(j, "buy").value, a.buy)
    && Field(j, "rent").Some? && PricesReadAs(Field(j, "rent").value, a.rent)
  }

  function ToArea(j: Json): (a: Area)
    requires ValidArea(j)
    ensures ReadsAreaAs(j, a)
    ensures a.id == IdText(j) && |a.id| >= 1 && |a.name| >= 1 && |a.region| >= 1
    ensures -90.0 <= a.lat <= 90.0 && -180.0 <= a.lng <= 180.0
    ensures Field(j, "zoom_level") == Some(JString(ZoomName(a.zoomLevel)))
  {
    var z := ZoomOf(Field(j, "zoom_level").value.s).value;
    assert ZoomName(z) == Field(j, "zoom_level").value.s;
    var buy := ToPropertyPrices(Field(j, "buy").value);
    var rent := ToPropertyPrices(Field(j, "rent").value);
    Area(Field(j, "id").value.s, Field(j, "name").value.s, Field(j, "region").value.s,
         Number(Field(j, "lat")).value, Number(Field(j, "lng")).value, z, buy, rent)
  }

  // ----- PriceData -----

  predicate IsDigit(c: char) {
    '0' <= c <= '9'
  }

  predicate AllDigits(s: string) {
    forall k :: 0 <= k < |s| ==> IsDigit(s[k])
  }

  /** Length of the run of digits `s` starts with. */
  function DigitRun(s: string): (n: nat)
    ensures n <= |s|
    ensures AllDigits(s[..n])
    ensures n < |s| ==> !IsDigit(s[n])
  {
    if s != [] && IsDigit(s[0]) then
      var n := 1 + DigitRun(s[1..]);
      assert s[..n] == [s[0]] + s[1..][..n - 1];
      n
    else 0
  }

  /** Scans a version: digits, '.', digits, '.', digits, and nothing after. */
  predicate IsVersion(v: string) {
    var a := DigitRun(v);
    && 0 < a < |v| && v[a] == '.'
    && var rest := v[a + 1..];
       var b := DigitRun(rest);
       && 0 < b < |rest| && rest[b] == '.'
       && var tail := rest[b + 1..];
          0 < |tail| && DigitRun(tail) == |tail|
  }

  /** The whole string matches `\d+\.\d+\.\d+`, with `\d` the ASCII digits. */
  ghost predicate MatchesVersionPattern(v: string) {
    exists i, j | 0 < i && i + 1 < j && j + 1 < |v| ::
      && AllDigits(v[..i]) && v[i] == '.'
      && AllDigits(v[i + 1..j]) && v[j] == '.'
      && AllDigits(v[j + 1..])
  }

  /** The scanner accepts exactly the strings the version pattern matches. */
  lemma VersionScanMatchesPattern(v: string)
    ensures IsVersion(v) <==> MatchesVersionPattern(v)
  {
    if IsVersion(v) {
      VersionScanSound(v);
    }
    if MatchesVersionPattern(v) {
      var i, j :| 0 < i && i + 1 < j && j + 1 < |v|
                  && AllDigits(v[..i]) && v[i] == '.'
                  && AllDigits(v[i + 1..j]) && v[j] == '.'
                  && AllDigits(v[j + 1..]);
      VersionScanComplete(v, i, j);
    }
  }

  lemma VersionScanSound(v: string)
    requires IsVersion(v)
    ensures MatchesVersionPattern(v)
  {
    var a := DigitRun(v);
    var rest := v[a + 1..];
    var b := DigitRun(rest);
    var j := a + 1 + b;
    var tail := rest[b + 1..];
    assert v[a + 1..j] == rest[..b];
    assert v[j + 1..] == tail;
    assert tail[..|tail|] == tail;
    assert AllDigits(v[..a]) && AllDigits(v[a + 1..j]) && AllDigits(v[j + 1..]);
  }

  lemma VersionScanComplete(v: string, i: nat, j: nat)
    requires 0 < i && i + 1 < j && j + 1 < |v|
    requires AllDigits(v[..i]) && v[i] == '.'
    requires AllDigits(v[i + 1..j]) && v[j] == '.'
    requires AllDigits(v[j + 1..])
    ensures IsVersion(v)
  {
    RunStopsAt(v, i);
    var rest := v[i + 1..];
    var n: nat := j - i - 1;
    assert rest[..n] == v[i + 1..j];
    RunStopsAt(rest, n);
    var tail := rest[n + 1..];
    assert tail == v[j + 1..];
    RunCoversAll(tail);
  }

  lemma RunStopsAt(s: string, i: nat)
    requires i < |s| && AllDigits(s[..i]) && !IsDigit(s[i])
    ensures DigitRun(s) == i
  {
  }

  lemma RunCoversAll(s: string)
    requires AllDigits(s)
    ensures DigitRun(s) == |s|
  {
  }

  predicate ValidVersion(f: Option<Json>) {
    f.Some? && f.value.JString? && IsVersion(f.value.s)
  }

  predicate ValidDisclaimer(f: Option<Json>) {
    f.Some? && f.value.JString? && |f.value.s| >= 10
  }

  function IdTexts(xs: seq<Json>): seq<string> {
    seq(|xs|, i requires 0 <= i < |xs| => IdText(xs[i]))
  }

  /** A non-empty list of valid areas whose ids, counted as a set, are as many as the areas. */
  predicate ValidAreaList(f: Option<Json>) {
    && f.Some? && f.value.JArray?
    && |f.value.items| >= 1
    && (forall x :: x in f.value.items ==> ValidArea(x))
    && SizeMatchesSet(IdTexts(f.value.items))
  }

  /**
   * The root document. `generated_at` must be present and read as a
   * date-time by `isDateTime`, which stands for the library's parser.
   */
  predicate ValidDataset(j: Json, isDateTime: Json -> bool) {
    && ValidVersion(Field(j, "version"))
    && Field(j, "generated_at").Some? && isDateTime(Field(j, "generated_at").value)
    && ValidDisclaimer(Field(j, "disclaimer"))
    && ValidAreaList(Field(j, "areas"))
  }

  /** Python's `len(ids) != len(set(ids))` over typed areas. */
  predicate UniqueAreaIds(areas: seq<Area>) {
    SizeMatchesSet(AreaIds(areas))
  }

  /** What a `PriceData` object guarantees about its fields. */
  predicate WellFormedPriceData(p: PriceData) {
    && IsVersion(p.version)
    && |p.disclaimer| >= 10
    && |p.areas| >= 1
    && (forall a :: a in p.areas ==> |a.id| >= 1 && -90.0 <= a.lat <= 90.0 && -180.0 <= a.lng <= 180.0)
    && UniqueAreaIds(p.areas)
  }

  /** The typed areas of a list of accepted area objects, in order. */
  function ToAreas(xs: seq<Json>): (areas: seq<Area>)
    requires forall x :: x in xs ==> ValidArea(x)
    ensures |areas| == |xs|
    ensures forall i :: 0 <= i < |xs| ==> areas[i].id == IdText(xs[i])
    ensures forall a :: a in areas ==> |a.id| >= 1 && -90.0 <= a.lat <= 90.0 && -180.0 <= a.lng <= 180.0
    ensures forall i :: 0 <= i < |xs| ==> ReadsAreaAs(xs[i], areas[i])
  {
    seq(|xs|, i requires 0 <= i < |xs| => assert xs[i] in xs; ToArea(xs[i]))
  }

  /** The ids of typed areas, in order. */
  function AreaIds(areas: seq<Area>): seq<string> {
    seq(|areas|, i requires 0 <= i < |areas| => areas[i].id)
  }

  /** `p` holds exactly the version, timestamp and disclaimer of `j`, and one area per member of its area list, in order. */
  predicate ReadsDocumentAs(j: Json, p: PriceData) {
    && Field(j, "version") == Some(JString(p.version))
    && Field(j, "generated_at") == Some(p.generatedAt)
    && Field(j, "disclaimer") == Some(JString(p.disclaimer))
    && Field(j, "areas").Some? && Field(j, "areas").value.JArray?
    && |p.areas| == |Field(j, "areas").value.items|
    && forall i :: 0 <= i < |p.areas| ==> ReadsAreaAs(Field(j, "areas").value.items[i], p.areas[i])
  }

  /** The typed document of an accepted one. */
  function ToPriceData(j: Json): (p: PriceData)
    requires ValidVersion(Field(j, "version")) && Field(j, "generated_at").Some?
    requires ValidDisclaimer(Field(j, "disclaimer")) && ValidAreaList(Field(j, "areas"))
    ensures WellFormedPriceData(p)
    ensures ReadsDocumentAs(j, p)
    ensures AreaIds(p.areas) == IdTexts(Field(j, "areas").value.items)
  {
    var xs := Field(j, "areas").value.items;
    var areas := ToAreas(xs);
    assert AreaIds(areas) == IdTexts(xs);
    PriceData(Field(j, "version").value.s, Field(j, "generated_at").value,
              Field(j, "disclaimer").value.s, areas)
  }

  /** `validate_price_data`: the typed document when the input is accepted, nothing when it raises. */
  function ValidatePriceData(j: Json, isDateTime: Json -> bool): (r: Option<PriceData>)
    ensures r.Some? <==> ValidDataset(j, isDateTime)
    ensures r.Some? ==> WellFormedPriceData(r.value)
    ensures r.Some? ==> AreaIds(r.value.areas) == IdTexts(Field(j, "areas").value.items)
    ensures r.Some? ==> ReadsDocumentAs(j, r.value)
  {
    if ValidDataset(j, isDateTime) then Some(ToPriceData(j)) else None
  }

  /** A band object reads as one band at most: the confidence word names one confidence. */
  lemma BandReadingUnique(j: Json, b: PriceBand, b': PriceBand)
    requires ReadsAs(j, b) && ReadsAs(j, b')
    ensures b == b'
  {
  }

  /** An area object reads as one typed area at most, so the conversion keeps nothing but the input's values. */
  lemma AreaReadingUnique(j: Json, a: Area, a': Area)
    requires ReadsAreaAs(j, a) && ReadsAreaAs(j, a')
    ensures a == a'
  {
  }

  lemma PricesReadingUnique(j: Json, p: PropertyPrices, p': PropertyPrices)
    requires PricesReadAs(j, p) && PricesReadAs(j, p')
    ensures p == p'
  {
  }

  /** A document reads as one typed document at most: an accepted document's result is fixed by its input. */
  lemma DocumentReadingUnique(j: Json, p: PriceData, p': PriceData)
    requires ReadsDocumentAs(j, p) && ReadsDocumentAs(j, p')
    ensures p == p'
  {
  }

  /** With every other rule met, a document is rejected exactly when some area id occurs twice. */
  lemma DuplicateIdsRejected(j: Json, isDateTime: Json -> bool)
    requires ValidVersion(Field(j, "version"))
    requires Field(j, "generated_at").Some? && isDateTime(Field(j, "generated_at").value)
    requires ValidDisclaimer(Field(j, "disclaimer"))
    requires Field(j, "areas").Some? && Field(j, "areas").value.JArray?
    requires |Field(j, "areas").value.items| >= 1
    requires forall x :: x in Field(j, "areas").value.items ==> ValidArea(x)
    ensures !ValidDataset(j, isDateTime)
            <==> exists a, b :: 0 <= a < b < |Field(j, "areas").value.items|
                                && IdTexts(Field(j, "areas").value.items)[a] == IdTexts(Field(j, "areas").value.items)[b]
  {
    SizeMatchesSetIffNoDuplicates(IdTexts(Field(j, "areas").value.items));
  }
}

=== FILE: sequences.dfy ===
/** Facts about sequences used by the id-uniqueness and ordering arguments. */
module Sequences {

  /** The set of elements of a sequence: Python's `set(xs)`. */
  function Elements<T>(xs: seq<T>): set<T> {
    set x | x in xs
  }

  /** No element occurs twice. */
  predicate NoDuplicates<T(==)>(xs: seq<T>) {
    forall i, j :: 0 <= i < j < |xs| ==> xs[i] != xs[j]
  }

  /** Python's `len(xs) == len(set(xs))`, the form the schema's uniqueness check takes. */
  predicate SizeMatchesSet<T(==)>(xs: seq<T>) {
    |Elements(xs)| == |xs|
  }

  lemma {:induction false} ElementsBound<T>(xs: seq<T>)
    ensures |Elements(xs)| <= |xs|
  {
    if xs != [] {
      var init := xs[..|xs| - 1];
      ElementsBound(init);
      assert Elements(xs) == Elements(init) + {xs[|xs| - 1]};
    }
  }

  /** Comparing the length of a list with the size of its set detects exactly the repeated elements. */
  lemma {:induction false} SizeMatchesSetIffNoDuplicates<T>(xs: seq<T>)
    ensures SizeMatchesSet(xs) <==> NoDuplicates(xs)
  {
    if xs != [] {
      var init, last := xs[..|xs| - 1], xs[|xs| - 1];
      SizeMatchesSetIffNoDuplicates(init);
      assert Elements(xs) == Elements(init) + {last};
      if last in init {
        ElementsBound(init);
        assert Elements(xs) == Elements(init);
        var k :| 0 <= k < |init| && init[k] == last;
        assert xs[k] == xs[|xs| - 1];
      } else {
        assert last !in Elements(init);
        assert NoDuplicates(xs) <==> NoDuplicates(init) by {
          if NoDuplicates(init) {
            forall i, j | 0 <= i < j < |xs| ensures xs[i] != xs[j] {
              if j == |xs| - 1 {
                assert xs[i] == init[i];
              } else {
                assert xs[i] == init[i] && xs[j] == init[j];
              }
            }
          }
          if NoDuplicates(xs) {
            forall i, j | 0 <= i < j < |init| ensures init[i] != init[j] {
              assert xs[i] == init[i] && xs[j] == init[j];
            }
          }
        }
      }
    }
  }

  /** The elements of `xs` in order of first occurrence, each once. */
  function Dedup<T(==)>(xs: seq<T>): seq<T> {
    if xs == [] then []
    else if xs[|xs| - 1] in xs[..|xs| - 1] then Dedup(xs[..|xs| - 1])
    else Dedup(xs[..|xs| - 1]) + [xs[|xs| - 1]]
  }

  /** The elements of `xs` that do not occur in `ys`, in their original order. */
  function Without<T(==)>(xs: seq<T>, ys: seq<T>): seq<T> {
    if xs == [] then []
    else if xs[|xs| - 1] in ys then Without(xs[..|xs| - 1], ys)
    else Without(xs[..|xs| - 1], ys) + [xs[|xs| - 1]]
  }

  lemma {:induction false} DedupFacts<T>(xs: seq<T>)
    ensures NoDuplicates(Dedup(xs))
    ensures forall x :: x in Dedup(xs) <==> x in xs
  {
    if xs != [] {
      var init, last := xs[..|xs| - 1], xs[|xs| - 1];
      DedupFacts(init);
      assert xs == init + [last];
    }
  }

  lemma {:induction false} DedupOfDistinct<T>(xs: seq<T>)
    requires NoDuplicates(xs)
    ensures Dedup(xs) == xs
  {
    if xs != [] {
      var init, last := xs[..|xs| - 1], xs[|xs| - 1];
      assert NoDuplicates(init) by {
        forall i, j | 0 <= i < j < |init| ensures init[i] != init[j] {
          assert xs[i] == init[i] && xs[j] == init[j];
        }
      }
      DedupOfDistinct(init);
      assert last !in init by {
        forall k | 0 <= k < |init| ensures init[k] != last {
          assert xs[k] == init[k];
        }
      }
      assert xs == init + [last];
    }
  }

  lemma DedupSnoc<T>(xs: seq<T>, x: T)
    ensures Dedup(xs + [x]) == if x in xs then Dedup(xs) else Dedup(xs) + [x]
  {
    var ys := xs + [x];
    assert ys[..|ys| - 1] == xs && ys[|ys| - 1] == x;
  }

  lemma WithoutSnoc<T>(xs: seq<T>, ys: seq<T>, x: T)
    ensures Without(xs + [x], ys) == if x in ys then Without(xs, ys) else Without(xs, ys) + [x]
  {
    var zs := xs + [x];
    assert zs[..|zs| - 1] == xs && zs[|zs| - 1] == x;
  }

  /** First-occurrence order of a concatenation: the order of `a`, then the new elements of `b`. */
  lemma {:induction false} DedupAppend<T>(a: seq<T>, b: seq<T>)
    ensures Dedup(a + b) == Dedup(a) + Dedup(Without(b, a))
  {
    if b == [] {
      assert a + b == a;
    } else {
      var init, last := b[..|b| - 1], b[|b| - 1];
      assert b == init + [last];
      DedupAppend(a, init);
      DedupAppendStep(a, init, last);
    }
  }

  lemma DedupAppendStep<T>(a: seq<T>, init: seq<T>, last: T)
    requires Dedup(a + init) == Dedup(a) + Dedup(Without(init, a))
    ensures Dedup(a + (init + [last])) == Dedup(a) + Dedup(Without(init + [last], a))
  {
    assert a + (init + [last]) == (a + init) + [last];
    WithoutSnoc(init, a, last);
    if last in a {
      SnocSeen(a, init, last);
    } else {
      SnocUnseen(a, init, last);
    }
  }

  lemma SnocSeen<T>(a: seq<T>, init: seq<T>, last: T)
    requires last in a
    ensures Dedup((a + init) + [last]) == Dedup(a + init)
  {
    DedupSnoc(a + init, last);
    assert last in a + init;
  }

  lemma SnocUnseen<T>(a: seq<T>, init: seq<T>, last: T)
    requires last !in a
    requires Dedup(a + init) == Dedup(a) + Dedup(Without(init, a))
    ensures Dedup((a + init) + [last]) == Dedup(a) + Dedup(Without(init, a) + [last])
  {
    var w := Without(init, a);
    WithoutMembership(init, a, last);
    assert last in a + init <==> last in w;
    DedupSnoc(a + init, last);
    DedupSnoc(w, last);
  }

  lemma {:induction false} WithoutMembership<T>(xs: seq<T>, ys: seq<T>, x: T)
    requires x !in ys
    ensures x in Without(xs, ys) <==> x in xs
  {
    if xs != [] {
      var init := xs[..|xs| - 1];
      WithoutMembership(init, ys, x);
      assert xs == init + [xs[|xs| - 1]];
    }
  }
}

=== FILE: wrappers.dfy ===
/** Failure-compatible wrappers used across the model. */
module Wrappers {

  /** An optional value: Python's `None` or a present value. */
  datatype Option<+T> = None | Some(value: T) {

    predicate IsFailure() {
      None?
    }

    function PropagateFailure<U>(): Option<U>
      requires None?
    {
      None
    }

    function Extract(): T
      requires Some?
    {
      value
    }

    /** The value, or `default` when absent (Python's `dict.get(key, default)`). */
    function GetOr(default: T): T {
      match this
      case Some(v) => v
      case None => default
    }
  }

  /** Either a value or the exception that was raised instead. */
  datatype Result<+R, +E> = Success(value: R) | Failure(error: E) {

    predicate IsFailure() {
      Failure?
    }

    function PropagateFailure<U>(): Result<U, E>
      requires Failure?
    {
      Failure(error)
    }

    function Extract(): R
      requires Success?
    {
      value
    }
  }
}
